=== FILE: README.md ===
# Course portal: a verified model of its request logic

The portal is a small Flask/SQLite site for a course. Students browse course
materials and mark each one completed or pending. Administrators do four things:

- publish materials, either as an uploaded file or as a URL;
- publish announcements;
- create accounts;
- inspect every student's progress.

This project models the logic inside the route handlers as pure functions over an
immutable `Store`. The store holds the four tables plus the AUTOINCREMENT counters
SQLite keeps for them. Each handler returns the new store together with an outcome
value; a redirect or a re-rendered form is one of those outcome values. The
project then proves what the handlers promise.

Modules: `Database`, `Auth` and `Main` follow one source file each; `portal/admin.py`
is split into `Admin` (the write routes) and `AdminProgress` (the progress views);
three shared helpers match no single file (`Wrappers`, `Forms`, `Collation`).

- `Wrappers` (`wrappers.dfy`): the `Option` type, for a form field that was not sent or a lookup that found nothing.
- `Forms` (`forms.dfy`): the form-field idiom `(request.form.get(k) or default).strip()`, Python's `str.strip`, and the ASCII `lower` shared by Python and SQLite. Also proves that lower-casing and trimming commute.
- `Database` (`database.dfy`): rows and tables, and the constraints the schema declares (keys, `UNIQUE`, the role `CHECK`). Also the invariant the application keeps on top of them (`AppOk`: usernames stored lower-case, estado 0 or 1), inserts with AUTOINCREMENT, and `init_db`.
- `Auth` (`auth.dfy`): the current user loaded before each request, the two gates `login_required` and `admin_required`, and the login and logout transitions on the session.
- `Main` (`main.dfy`): the materials listing with `total` and `hechos`, and the progress toggle.
- `Collation` (`collation.dfy`): SQLite's BINARY text ordering.
- `Admin` (`admin.dfy`): `allowed_file`, material, announcement and user creation, the deletes, and the admin gate around them.
- `AdminProgress` (`admin_progress.dfy`): the progress summary with its ordering, and the per-user detail.

Three behaviours of the code are proved as written; the last two differ from
what the schema declares:

- The summary is ordered `rol DESC`. Because `'alumno'` sorts after `'admin'`, students are listed before administrators (`AdminProgress.AlumnosBeforeAdmins`).
- `ON DELETE CASCADE` is declared on both progress foreign keys, but the connection never runs `PRAGMA foreign_keys = ON`, so SQLite does not enforce it. Deleting a material keeps its progress rows (`Admin.DeleteLeavesOrphans`). Reseeding in `init_db` also leaves old rows pointing at no material (`Database.InitDbOrphansOldProgress`). The model states the cascade only as a declared intent (`Admin.DeclaredCascade`).
- The summary counts a user's completed progress rows without joining materials. After a material is deleted, a student can show more completed materials than `total_mat` (`AdminProgress.SummaryCanExceedTotal`). When no orphan rows exist, the summary agrees with the detail view (`AdminProgress.SummaryAgreesWithDetail`).

Stand-ins for code outside the model:

- Password hashing is a function parameter: `hash` for `generate_password_hash` and `checkHash` for `check_password_hash`.
- The generated upload file name is the parameter `storedName`.
- The session is a `map<string, int>` holding only `"user_id"`; the flash messages Flask also keeps in it are left out.

## Model

| member | source | states |
|---|---|---|
| Forms.FormField | portal/admin.py:69-72 | the value used is the submitted text when it is present and non-empty, otherwise the default, trimmed in both cases; the result never starts or ends with whitespace |
| Forms.StripSpec | portal/admin.py:69-72 | the input is the result with only Python whitespace added before and after it, and the result neither starts nor ends with whitespace |
| Forms.StripIdempotent | portal/admin.py:69-72 | trimming an already trimmed field changes nothing |
| Forms.StripEmptyIff | portal/admin.py:129-132 | a field trims to the empty string exactly when it holds only whitespace |
| Forms.FormFieldPresentIff | portal/admin.py:129-132 | `(form.get(k) or "").strip()` is non-empty exactly when the field was sent and holds a non-whitespace character |
| Forms.Lower | portal/admin.py:161 | lower-casing keeps the length, turns each ASCII capital into its own small letter, and changes no other character |
| Forms.LowerIdempotent | portal/admin.py:161 | lower-casing a lowered name changes nothing |
| Forms.LowerStripCommute | portal/admin.py:161 | `strip().lower()` equals `lower().strip()`: folding case never creates or removes surrounding whitespace |
| Database.FindUserById | portal/__init__.py:44-47 | the lookup returns a stored user with exactly the asked id, and returns nothing exactly when no user has that id |
| Database.UsernamesUniqueIgnoringCase | database.py:75 | under the application invariant, no two stored usernames are equal even after folding case |
| Database.InsertMaterial | portal/admin.py:105 | the insert appends one material with the next AUTOINCREMENT id, changes nothing else and keeps the invariant |
| Database.InsertAnuncio | portal/admin.py:137 | the insert appends one announcement with the next id, changes nothing else and keeps the invariant |
| Database.InsertUser | portal/admin.py:181 | the insert appends one user with the next id; the invariant survives when the role passes the CHECK, the name is lower-case and no stored name folds to it |
| Database.InitDb | database.py:27-104 | afterwards the materials are exactly the three seed rows of `database.py` (pdf, ppt, video) with the next three AUTOINCREMENT ids, and the announcements exactly the two seed rows with the next two ids; both counters advance accordingly; progress is untouched; users are untouched when an 'admin' exists, and otherwise exactly one admin-role 'admin' is appended; the invariant is kept |
| Database.InitDbUsersStable | database.py:94-101 | running `init_db` a second time never adds another account |
| Database.InitDbFromEmpty | database.py:44-101 | on an empty database `init_db` leaves the seed rows, one admin with id 1, no progress, and a well-formed store |
| Database.InitDbOrphansOldProgress | database.py:44-52 | a progress row that referred to a material before reseeding survives and refers to no material afterwards |
| Auth.CurrentUser | portal/__init__.py:38-47 | no `user_id` in the session means no user; a resolved user is stored and has the session's id; a session id that exists is always resolved |
| Auth.LoginRequired | portal/auth.py:14-21 | the handler runs exactly when there is a current user; otherwise the answer is a login redirect carrying the request path |
| Auth.AdminRequired | portal/auth.py:24-34 | an anonymous request is sent to login, a non-admin user is sent home, and the handler runs exactly for an admin |
| Auth.AdminGateImpliesLoginGate | portal/auth.py:17-33 | whatever the admin gate lets through the login gate lets through, and both give the same answer to anonymous requests |
| Auth.FindByFoldedName | portal/auth.py:49-51 | a found user is stored and their lowered name equals the submitted name; nothing is found exactly when no stored name lowers to it |
| Auth.Login | portal/auth.py:39-63 | on the raw form: a logged-in visitor gets the already-logged-in answer; a rejection keeps the session; a success stores only the id of a stored user whose name folds to the trimmed, lowered input and whose hash check passes on the trimmed password; an anonymous visitor never gets the already-logged-in answer; unknown-user is reported exactly when no stored name folds to it, and wrong-password exactly when the first user whose name folds to it fails the hash check on the trimmed password; the redirect target is the `next` argument when it is non-empty and home otherwise |
| Auth.LoginByName | portal/auth.py:41-63 | a logged-in visitor gets the already-logged-in answer with the session unchanged, and only they do; a rejection leaves the session unchanged; a success leaves a session holding only the user's id, for a stored user whose name matches and whose hash check passes; unknown-user is reported exactly when no name matches; wrong-password is reported exactly when the first matching user's hash check fails; when it passes, that user is logged in; `next` defaults to home when missing or empty |
| Auth.LoginSucceedsIff | portal/auth.py:53-63 | an anonymous login succeeds exactly when a user matches the trimmed, lowered name and that user's password check passes |
| Auth.LoginCaseInsensitive | portal/auth.py:45-51 | two submitted usernames that fold to the same text give the same login result |
| Auth.LoginThenCurrentUser | portal/auth.py:58-60 | after a successful login the next request resolves exactly the user who logged in |
| Auth.Logout | portal/auth.py:70-74 | logout leaves an empty session |
| Auth.LogoutThenAnonymous | portal/auth.py:70-72 | after logout no user is current, and the login gate redirects |
| Main.ListingViewer | portal/main.py:20-23 | the joined listing is used exactly when the session holds a non-zero `user_id`, and it is made for that id |
| Main.JoinRows | portal/main.py:24-37 | one row per material, newest id first, each flag the stored estado of the viewer's pair (0 when no row exists) or 0 for an anonymous viewer |
| Main.CountDone | portal/main.py:40 | `hechos` is the number of rows whose flag is 1; hence it is at most the number of rows, 0 exactly when no row is completed, and the row count exactly when every row is |
| Main.Materiales | portal/main.py:17-42 | `total` is the number of materials; rows are the materials newest first; an anonymous listing shows every flag 0 and `hechos` 0; a logged-in listing shows the stored estado per material; `hechos` is the number of listed rows whose flag is 1, so `0 <= hechos <= total` |
| Main.ListingNewestFirst | portal/main.py:30-36 | in a well-formed store the listed ids strictly decrease, so each material is listed once |
| Main.ListingCoversMateriales | portal/main.py:24-37 | every stored material appears in the listing at its mirrored position |
| Main.Toggle | portal/main.py:51-67 | an absent pair becomes completed, a completed pair becomes pending, any other value becomes completed; the pair is the only key added and no other pair changes |
| Main.ToggleFlipsFlag | portal/main.py:51-67 | a toggle flips the observed completion of its pair and of no other pair |
| Main.ToggleTwice | portal/main.py:51-67 | two toggles restore the observed flag; on a stored 0/1 row they restore the table exactly; an absent pair ends up stored as pending |
| Main.ToggleProgreso | portal/main.py:45-71 | the toggle runs exactly for a logged-in user; anonymous requests are redirected to login with the store unchanged; the user's flag for the material flips, no other progress row changes, the other tables and the AUTOINCREMENT counters are untouched and the invariant is kept |
| Main.ToggleUnknownMaterial | portal/main.py:56-60 | a toggle on a material id that does not exist still stores a progress row |
| Main.ToggleShiftsHechos | portal/main.py:40-67 | toggling a listed material changes the user's `hechos` by exactly one, downwards when it was completed and upwards otherwise |
| Admin.AllowedFile | portal/admin.py:17-20 | a name is accepted exactly when it has a '.' and the text after the last '.', lower-cased, is pdf, ppt or pptx |
| Admin.AllowedFileUpperCase | portal/admin.py:17-20 | `a.PDF` is accepted |
| Admin.AllowedFileLastExtensionOnly | portal/admin.py:17-20 | `a.pdf.exe` is refused |
| Admin.AllowedFileNeedsExtension | portal/admin.py:17-20 | `noext` and `informe.` are refused |
| Admin.MaterialErrors | portal/admin.py:73-89 | errors accumulate in the order title, tipo, source with at most one source error, and each error is reported exactly under its own condition |
| Admin.VideoFileIgnoresUpload | portal/admin.py:79-81 | a video with the file source always gets the "videos by URL" error, and the upload does not affect the result |
| Admin.UrlSourceIgnoresUpload | portal/admin.py:88-89 | any source other than "archivo" never looks at the upload |
| Admin.NuevoMaterial | portal/admin.py:67-108 | on the raw form: rejected exactly when some error applies to the trimmed fields, reporting all of them in order, echoing the fields and storing nothing; otherwise one material with the next id, the trimmed non-empty title and tipo is appended; its url is the upload path for the file source (the default), with an allowed file name, and the trimmed non-empty URL otherwise; the invariant is kept |
| Admin.CreateMaterial | portal/admin.py:68-108 | a rejection happens exactly when some error applies; it reports all errors, echoes the trimmed fields and stores nothing; otherwise exactly one material is appended with a non-empty title and a valid tipo; its url is `/static/uploads/` plus the stored name for the file source, and the non-empty URL verbatim for any other source; the invariant is kept |
| Admin.VideoByFileRejected | portal/admin.py:71-93 | a video submitted with the default file source is refused and nothing is stored |
| Admin.EliminarMaterial | portal/admin.py:115-120 | no material with that id remains, every remaining material was there before and every other material remains; an id no material carries changes nothing; progress, the other tables and the counters are untouched; the invariant is kept |
| Admin.DeclaredCascade | database.py:88-89 | the declared cascade deletes the material and, only when a material row was actually removed, exactly the progress rows pointing at it; every other progress row keeps its value and nothing else changes |
| Admin.DeleteLeavesOrphans | database.py:88-89 | after the delete, every progress row of the material survives; the actual delete equals the declared cascade exactly when no material had that id or no progress row pointed at it |
| Admin.EliminarAnuncio | portal/admin.py:147-152 | no announcement with that id remains, every remaining one was there before and every other one remains; an id no announcement carries changes nothing; the other tables and the counters are untouched |
| Admin.NuevoAnuncio | portal/admin.py:127-140 | an announcement is created exactly when both trimmed fields are non-empty; a rejection echoes the trimmed fields and stores nothing; a creation appends exactly that announcement with the next id |
| Admin.NuevoAnuncioIff | portal/admin.py:129-132 | an announcement is created exactly when both fields were sent and each holds a non-whitespace character |
| Admin.UserFieldErrors | portal/admin.py:164-168 | each of short username, short password and invalid role is reported exactly under its condition, in that order and at most once, and duplicates are not a field error |
| Admin.CreateUser | portal/admin.py:160-185 | a user is created exactly when the fields are valid and no stored name folds to the new one; field errors come first, all of them; the duplicate check only runs afterwards; a rejection stores nothing and echoes name and role; a creation appends exactly one user with the hashed password |
| Admin.NuevoUsuario | portal/admin.py:159-185 | on the raw form: a user is created exactly when the trimmed, lowered fields have no error and no stored name folds to the username; field errors, when there are any, are reported all together, otherwise the duplicate error alone; a rejection stores nothing and echoes the normalised username and role; a creation appends exactly one user with the next id, the lower-case name, the hashed trimmed password and the role; the store stays well-formed whatever the form holds |
| Admin.DuplicateInAnyCase | portal/admin.py:174-178 | a name that matches a stored one in any letter case stores nothing and, when the fields are valid, is refused as a duplicate |
| Admin.AdminPost | portal/auth.py:24-34 | an admin route's handler runs exactly for an administrator, and then the resulting store is exactly that handler's (material or announcement created or deleted, user created); an anonymous request is redirected to login carrying the path and a logged-in non-admin is sent home, both leaving the store unchanged; every handler keeps the invariant |
| AdminProgress.ProgresoDetalle | portal/admin.py:40-61 | an unknown user id gives the not-found redirect; otherwise the stored user is shown with every material once, newest first, each with the user's stored estado; `hechos` is the number of rows whose flag is 1, so `0 <= hechos <= total` |
| AdminProgress.DetailMatchesOwnListing | portal/admin.py:49-57 | the detail view of a user is exactly the listing that user sees |
| AdminProgress.SortRows | portal/admin.py:35 | the rows are a permutation of the input in `rol DESC, username ASC` order |
| AdminProgress.ProgresoResumen | portal/admin.py:24-37 | `total_mat` is the number of materials; there is one row per user, holding that user's completed count; rows are in `rol DESC, username ASC` order |
| AdminProgress.AlumnosBeforeAdmins | portal/admin.py:35 | every student row precedes every administrator row |
| AdminProgress.SummaryListsEveryUser | portal/admin.py:29-34 | each stored user appears in the summary with their own completed count |
| AdminProgress.SummaryAgreesWithDetail | portal/admin.py:29-57 | when none of a user's progress rows is orphaned, the summary count equals the detail view's `hechos` and is at most `total_mat` |
| AdminProgress.SummaryCanExceedTotal | portal/admin.py:28-34 | a student who completed the only material, which is then deleted, is summarised as 1 completed out of 0 materials, while the detail view shows 0 |

## Left out

- Flask plumbing: flash messages, templates, `redirect`/`url_for` and the GET handlers that only render an empty form. Outcomes are datatype values; the text of flash messages is not modelled.
- The GET progress views are guarded by the same `admin_required` gate as the POST routes. `AdminPost` models that gate once; `ProgresoResumen` and `ProgresoDetalle` are stated for a request the gate already let through.
- `get_db`/`close_db` and the connection lifecycle: each handler is one atomic transition of the store.
- Werkzeug password hashing: `hash` and `checkHash` are uninterpreted parameters, so salting and hash formats are not modelled.
- `secure_filename`, `uuid4`, `os.path.join` and the file save: the stored file name is an opaque parameter, and only the `/static/uploads/` prefix is modelled.
- `create_app` configuration (secret key, upload folder, `MAX_CONTENT_LENGTH`): Flask enforces these before a handler runs.
- Concurrent requests: every transition is sequential.
- The post-login `next` target is passed through unchecked, as a plain string.
- The `fecha` and `creado_en` timestamp columns: `CURRENT_TIMESTAMP` needs a clock, and no logic reads them.
- The home page and the public announcement listing (`home`, `anuncios`): they render without any logic.
- Forms.Lower: folds ASCII letters only, which is what SQLite's `LOWER` does. Python's `str.lower` also folds non-ASCII capitals, so usernames containing them are not modelled faithfully.
- Database.InsertUser, Database.InsertMaterial, Database.InsertAnuncio: SQLite's 64-bit rowid limit and the `SQLITE_FULL` error it causes are not modelled; ids are unbounded integers.
- Flash messages in the session: Flask's `flash()` also writes `_flashes` into the session cookie. "Logout leaves an empty session" and "a rejected login keeps the session" hold only for the `user_id` entry the model keeps.
- Deleting users: the user cascade is declared too, but the application has no route that deletes a user.

=== FILE: admin.dfy ===
/** The administrator's write routes: creating and deleting materials, creating
    and deleting announcements, creating users, each behind `admin_required`. */
module Admin {
  import opened Wrappers
  import opened Forms
  import opened Database
  import opened Auth

  // ---- allowed_file ---------------------------------------------------------

  const AllowedExtensions: set<string> := {"pdf", "ppt", "pptx"}

  /** Position `i` holds the last '.' of `s`. */
  predicate LastDotAt(s: string, i: int) {
    0 <= i < |s| && s[i] == '.' && forall j :: i < j < |s| ==> s[j] != '.'
  }

  lemma LastDotUnique(s: string, i: int, j: int)
    requires LastDotAt(s, i) && LastDotAt(s, j)
    ensures i == j
  {
  }

  /** Index of the last '.' of `s`, if any. */
  function LastDot(s: string): (r: Option<nat>)
    ensures r.Some? ==> LastDotAt(s, r.value)
    ensures r.None? ==> forall j :: 0 <= j < |s| ==> s[j] != '.'
  {
    if |s| == 0 then None
    else if s[|s| - 1] == '.' then Some(|s| - 1)
    else LastDot(s[..|s| - 1])
  }

  /** Position `i` holds the last '.' of `filename`, and what follows it, lower-cased,
      is an allowed extension. */
  predicate AllowedAfterLastDot(filename: string, i: int) {
    LastDotAt(filename, i) && Lower(filename[i + 1..]) in AllowedExtensions
  }

  /** `allowed_file`: there is a '.', and the text after the last one,
      lower-cased, is an allowed extension. */
  function AllowedFile(filename: string): (ok: bool)
    ensures ok <==> exists i :: AllowedAfterLastDot(filename, i)
  {
    match LastDot(filename)
    case None => false
    case Some(i) =>
      assert forall j :: AllowedAfterLastDot(filename, j) ==> j == i by {
        forall j | AllowedAfterLastDot(filename, j) ensures j == i {
          LastDotUnique(filename, i, j);
        }
      }
      var ok := Lower(filename[i + 1..]) in AllowedExtensions;
      assert ok ==> AllowedAfterLastDot(filename, i);
      ok
  }

  /** The extension is compared case-insensitively. */
  lemma AllowedFileUpperCase()
    ensures AllowedFile("a.PDF")
  {
    assert Lower("PDF") == "pdf";
    assert "a.PDF"[1 + 1..] == "PDF";
    assert AllowedAfterLastDot("a.PDF", 1);
  }

  /** Only the text after the last '.' counts. */
  lemma AllowedFileLastExtensionOnly()
    ensures !AllowedFile("a.pdf.exe")
  {
    assert LastDotAt("a.pdf.exe", 5);
    assert "a.pdf.exe"[5 + 1..] == "exe";
    assert Lower("exe") == "exe";
    forall i | LastDotAt("a.pdf.exe", i) ensures i == 5 {
      LastDotUnique("a.pdf.exe", i, 5);
    }
  }

  /** A name without any '.' is refused, and so is a bare trailing '.'. */
  lemma AllowedFileNeedsExtension()
    ensures !AllowedFile("noext")
    ensures !AllowedFile("informe.")
  {
    assert LastDotAt("informe.", 7);
    assert "informe."[7 + 1..] == "";
    forall i | LastDotAt("informe.", i) ensures i == 7 {
      LastDotUnique("informe.", i, 7);
    }
  }

  // ---- nuevo_material -------------------------------------------------------

  const UploadPrefix := "/static/uploads/"
  const FuenteArchivo := "archivo"

  predicate ValidTipo(tipo: string) {
    tipo == "pdf" || tipo == "ppt" || tipo == "video"
  }

  /** The raw form: missing fields are `None`; `archivo` is the filename of the
      uploaded file part, if one was sent. */
  datatype MaterialForm = MaterialForm(
    titulo: Option<string>, tipo: Option<string>, fuente: Option<string>,
    url: Option<string>, archivo: Option<string>)

  /** The trimmed values the handler works with; also what a rejection echoes back. */
  datatype MaterialFields = MaterialFields(titulo: string, tipo: string, url: string, fuente: string)

  function MaterialFieldsOf(f: MaterialForm): MaterialFields {
    MaterialFields(FormField(f.titulo, ""), FormField(f.tipo, ""), FormField(f.url, ""),
                   FormField(f.fuente, FuenteArchivo))
  }

  datatype MaterialError =
    | MissingTitle
    | InvalidTipo
    | VideoNeedsUrl
    | MissingFile
    | ExtensionNotAllowed
    | MissingUrl

  /** Errors are reported title first, then tipo, then the one source error. */
  function ErrorRank(e: MaterialError): nat {
    match e
    case MissingTitle => 0
    case InvalidTipo => 1
    case _ => 2
  }

  predicate RankedStrictly(errs: seq<MaterialError>) {
    forall i, j :: 0 <= i < j < |errs| ==> ErrorRank(errs[i]) < ErrorRank(errs[j])
  }

  /** A file part counts as selected when it has a non-empty filename. */
  predicate FileSelected(archivo: Option<string>) {
    archivo.Some? && archivo.value != ""
  }

  /** The one error, if any, of the source branch: file checks for "archivo",
      a URL check for anything else. */
  function SourceErrors(v: MaterialFields, archivo: Option<string>): (errs: seq<MaterialError>)
    ensures |errs| <= 1
    ensures MissingTitle !in errs && InvalidTipo !in errs
    ensures VideoNeedsUrl in errs <==> v.fuente == FuenteArchivo && v.tipo == "video"
    ensures MissingFile in errs <==>
              v.fuente == FuenteArchivo && v.tipo != "video" && !FileSelected(archivo)
    ensures ExtensionNotAllowed in errs <==>
              v.fuente == FuenteArchivo && v.tipo != "video" && FileSelected(archivo)
              && !AllowedFile(archivo.value)
    ensures MissingUrl in errs <==> v.fuente != FuenteArchivo && v.url == ""
  {
    if v.fuente == FuenteArchivo then
      if v.tipo == "video" then [VideoNeedsUrl]
      else if !FileSelected(archivo) then [MissingFile]
      else if !AllowedFile(archivo.value) then [ExtensionNotAllowed]
      else []
    else if v.url == "" then [MissingUrl]
    else []
  }

  /** The error list of `nuevo_material`, accumulated rather than fail-fast. */
  function MaterialErrors(v: MaterialFields, archivo: Option<string>): (errs: seq<MaterialError>)
    ensures RankedStrictly(errs)
    ensures MissingTitle in errs <==> v.titulo == ""
    ensures InvalidTipo in errs <==> !ValidTipo(v.tipo)
    ensures VideoNeedsUrl in errs <==> v.fuente == FuenteArchivo && v.tipo == "video"
    ensures MissingFile in errs <==>
              v.fuente == FuenteArchivo && v.tipo != "video" && !FileSelected(archivo)
    ensures ExtensionNotAllowed in errs <==>
              v.fuente == FuenteArchivo && v.tipo != "video" && FileSelected(archivo)
              && !AllowedFile(archivo.value)
    ensures MissingUrl in errs <==> v.fuente != FuenteArchivo && v.url == ""
  {
    var titleErrs := if v.titulo == "" then [MissingTitle] else [];
    var tipoErrs := if !ValidTipo(v.tipo) then [InvalidTipo] else [];
    var sourceErrs := SourceErrors(v, archivo);
    var errs := titleErrs + tipoErrs + sourceErrs;
    assert forall e :: e in errs <==> e in titleErrs || e in tipoErrs || e in sourceErrs;
    assert forall i :: 0 <= i < |sourceErrs| ==> ErrorRank(sourceErrs[i]) == 2 by {
      forall i | 0 <= i < |sourceErrs| ensures ErrorRank(sourceErrs[i]) == 2 {
        assert sourceErrs[i] in sourceErrs;
      }
    }
    errs
  }

  /** A video sent as a file is rejected whatever the file is: the upload is
      never looked at. */
  lemma VideoFileIgnoresUpload(v: MaterialFields, a: Option<string>, b: Option<string>)
    requires v.fuente == FuenteArchivo && v.tipo == "video"
    ensures MaterialErrors(v, a) == MaterialErrors(v, b)
    ensures VideoNeedsUrl in MaterialErrors(v, a)
  {
  }

  /** Any source other than "archivo" (an absent or empty field means "archivo")
      takes the URL branch, which never inspects the upload. */
  lemma UrlSourceIgnoresUpload(v: MaterialFields, a: Option<string>, b: Option<string>)
    requires v.fuente != FuenteArchivo
    ensures MaterialErrors(v, a) == MaterialErrors(v, b)
  {
  }

  datatype MaterialOutcome =
    | MaterialRejected(errors: seq<MaterialError>, echo: MaterialFields)
    | MaterialCreated(material: Material)

  datatype MaterialResult = MaterialResult(store: Store, outcome: MaterialOutcome)

  /** The decision of `nuevo_material` on the trimmed fields: reject with every
      applicable error and echo the fields, or insert one material whose url is the
      upload path (file source) or the given URL verbatim (any other source). */
  function CreateMaterial(s: Store, v: MaterialFields, archivo: Option<string>, storedName: string)
    : (r: MaterialResult)
    ensures r.outcome.MaterialRejected? <==> |MaterialErrors(v, archivo)| > 0
    ensures r.outcome.MaterialRejected? ==>
              r.store == s && r.outcome.errors == MaterialErrors(v, archivo) && r.outcome.echo == v
    ensures r.outcome.MaterialCreated? ==>
              r.store == s.(materiales := s.materiales + [r.outcome.material],
                            lastMaterialId := s.lastMaterialId + 1)
    ensures r.outcome.MaterialCreated? ==>
              && r.outcome.material.id == s.lastMaterialId + 1
              && r.outcome.material.titulo == v.titulo != ""
              && r.outcome.material.tipo == v.tipo && ValidTipo(v.tipo)
    ensures r.outcome.MaterialCreated? && v.fuente == FuenteArchivo ==>
              && v.tipo != "video" && FileSelected(archivo) && AllowedFile(archivo.value)
              && r.outcome.material.url == UploadPrefix + storedName
    ensures r.outcome.MaterialCreated? && v.fuente != FuenteArchivo ==>
              r.outcome.material.url == v.url != ""
    ensures AppOk(s) ==> AppOk(r.store)
  {
    var errs := MaterialErrors(v, archivo);
    if |errs| > 0 then MaterialResult(s, MaterialRejected(errs, v))
    else
      assert MissingTitle !in errs && InvalidTipo !in errs && VideoNeedsUrl !in errs;
      assert MissingFile !in errs && ExtensionNotAllowed !in errs && MissingUrl !in errs;
      var finalUrl := if v.fuente == FuenteArchivo then UploadPrefix + storedName else v.url;
      var m := Material(s.lastMaterialId + 1, v.titulo, v.tipo, finalUrl);
      MaterialResult(InsertMaterial(s, v.titulo, v.tipo, finalUrl), MaterialCreated(m))
  }

  /** POST `/admin/materiales/nuevo`. `storedName` stands for the generated upload
      name (`uuid4().hex + "_" + secure_filename(...)`). */
  function NuevoMaterial(s: Store, form: MaterialForm, storedName: string): (r: MaterialResult)
    ensures r.outcome.MaterialRejected? <==> |MaterialErrors(MaterialFieldsOf(form), form.archivo)| > 0
    ensures r.outcome.MaterialRejected? ==>
              && r.store == s && r.outcome.echo == MaterialFieldsOf(form)
              && r.outcome.errors == MaterialErrors(MaterialFieldsOf(form), form.archivo)
    ensures r.outcome.MaterialCreated? ==>
              && r.store == s.(materiales := s.materiales + [r.outcome.material],
                               lastMaterialId := s.lastMaterialId + 1)
              && r.outcome.material.id == s.lastMaterialId + 1
              && r.outcome.material.titulo == FormField(form.titulo, "") != ""
              && r.outcome.material.tipo == FormField(form.tipo, "")
    ensures r.outcome.MaterialCreated? && FormField(form.fuente, FuenteArchivo) == FuenteArchivo ==>
              r.outcome.material.url == UploadPrefix + storedName && AllowedFile(form.archivo.value)
    ensures r.outcome.MaterialCreated? && FormField(form.fuente, FuenteArchivo) != FuenteArchivo ==>
              r.outcome.material.url == FormField(form.url, "") != ""
    ensures AppOk(s) ==> AppOk(r.store)
  {
    CreateMaterial(s, MaterialFieldsOf(form), form.archivo, storedName)
  }

  /** A video submitted with the file source (the default) is always refused, and
      nothing is stored, whatever else the form holds. */
  lemma VideoByFileRejected(s: Store, form: MaterialForm, storedName: string)
    requires FormField(form.tipo, "") == "video"
    requires form.fuente.None? || form.fuente.value == "" || Strip(form.fuente.value) == FuenteArchivo
    ensures NuevoMaterial(s, form, storedName).store == s
    ensures VideoNeedsUrl in NuevoMaterial(s, form, storedName).outcome.errors
  {
    assert MaterialFieldsOf(form).fuente == FuenteArchivo by {
      StripTrimmed(FuenteArchivo);
    }
  }

  // ---- eliminar_material / eliminar_anuncio ---------------------------------

  function RemoveMaterial(ms: seq<Material>, mid: int): (r: seq<Material>)
    ensures forall i :: 0 <= i < |r| ==> r[i] in ms && r[i].id != mid
    ensures forall i :: 0 <= i < |ms| && ms[i].id != mid ==> ms[i] in r
    ensures MaterialIdsIncrease(ms) ==> MaterialIdsIncrease(r)
  {
    if |ms| == 0 then []
    else
      var rest := RemoveMaterial(ms[1..], mid);
      assert forall i :: 1 <= i < |ms| ==> ms[i] == ms[1..][i - 1];
      if ms[0].id == mid then rest else [ms[0]] + rest
  }

  /** Deleting an id no row carries changes nothing. */
  lemma {:induction false} RemoveMaterialAbsent(ms: seq<Material>, mid: int)
    requires forall i :: 0 <= i < |ms| ==> ms[i].id != mid
    ensures RemoveMaterial(ms, mid) == ms
  {
    if |ms| > 0 {
      var tail := ms[1..];
      RemoveMaterialAbsent(tail, mid);
      assert RemoveMaterial(ms, mid) == [ms[0]] + RemoveMaterial(tail, mid);
      assert ms == [ms[0]] + tail;
    }
  }

  function RemoveAnuncio(as_: seq<Anuncio>, aid: int): (r: seq<Anuncio>)
    ensures forall i :: 0 <= i < |r| ==> r[i] in as_ && r[i].id != aid
    ensures forall i :: 0 <= i < |as_| && as_[i].id != aid ==> as_[i] in r
    ensures AnuncioIdsIncrease(as_) ==> AnuncioIdsIncrease(r)
  {
    if |as_| == 0 then []
    else
      var rest := RemoveAnuncio(as_[1..], aid);
      assert forall i :: 1 <= i < |as_| ==> as_[i] == as_[1..][i - 1];
      if as_[0].id == aid then rest else [as_[0]] + rest
  }

  /** Deleting an id no row carries changes nothing. */
  lemma {:induction false} RemoveAnuncioAbsent(as_: seq<Anuncio>, aid: int)
    requires forall i :: 0 <= i < |as_| ==> as_[i].id != aid
    ensures RemoveAnuncio(as_, aid) == as_
  {
    if |as_| > 0 {
      var tail := as_[1..];
      RemoveAnuncioAbsent(tail, aid);
      assert RemoveAnuncio(as_, aid) == [as_[0]] + RemoveAnuncio(tail, aid);
      assert as_ == [as_[0]] + tail;
    }
  }

  /** POST `/admin/materiales/eliminar/<mid>`: `DELETE FROM materiales WHERE id = ?`.
      Progress rows are untouched: the connection never enables foreign keys. */
  function EliminarMaterial(s: Store, mid: int): (r: Store)
    ensures mid !in MaterialIds(r.materiales)
    ensures forall i :: 0 <= i < |r.materiales| ==> r.materiales[i] in s.materiales
    ensures forall i :: 0 <= i < |s.materiales| && s.materiales[i].id != mid ==> s.materiales[i] in r.materiales
    ensures mid !in MaterialIds(s.materiales) ==> r == s
    ensures r == s.(materiales := r.materiales)
    ensures AppOk(s) ==> AppOk(r)
  {
    var r := s.(materiales := RemoveMaterial(s.materiales, mid));
    if mid in MaterialIds(s.materiales) then r
    else RemoveMaterialAbsent(s.materiales, mid); r
  }

  /** What the schema's `ON DELETE CASCADE` on `progreso.material_id` declares for
      a material delete: when a material row is actually removed, the progress
      rows pointing at it go with it; nothing else changes. */
  function DeclaredCascade(s: Store, mid: int): (r: Store)
    ensures r == s.(materiales := EliminarMaterial(s, mid).materiales, progreso := r.progreso)
    ensures forall k :: k in r.progreso <==>
              k in s.progreso && !(k.1 == mid && mid in MaterialIds(s.materiales))
    ensures forall k :: k in r.progreso ==> r.progreso[k] == s.progreso[k]
  {
    var d := EliminarMaterial(s, mid);
    if mid in MaterialIds(s.materiales) then
      d.(progreso := map k | k in s.progreso && k.1 != mid :: s.progreso[k])
    else d
  }

  /** Deleting a material leaves its progress rows behind as orphans, so the actual
      delete differs from the declared cascade exactly when a material row is
      removed and progress rows point at it. */
  lemma DeleteLeavesOrphans(s: Store, mid: int)
    ensures forall k :: k in s.progreso && k.1 == mid ==>
              k in EliminarMaterial(s, mid).progreso && mid !in MaterialIds(EliminarMaterial(s, mid).materiales)
    ensures EliminarMaterial(s, mid) == DeclaredCascade(s, mid) <==>
              mid !in MaterialIds(s.materiales) || forall k :: k in s.progreso ==> k.1 != mid
  {
    if mid !in MaterialIds(s.materiales) || forall k :: k in s.progreso ==> k.1 != mid {
      assert DeclaredCascade(s, mid).progreso == s.progreso;
    } else {
      var k :| k in s.progreso && k.1 == mid;
      assert k !in DeclaredCascade(s, mid).progreso;
    }
  }

  /** POST `/admin/anuncios/eliminar/<aid>`. */
  function EliminarAnuncio(s: Store, aid: int): (r: Store)
    ensures forall i :: 0 <= i < |r.anuncios| ==> r.anuncios[i].id != aid && r.anuncios[i] in s.anuncios
    ensures forall i :: 0 <= i < |s.anuncios| && s.anuncios[i].id != aid ==> s.anuncios[i] in r.anuncios
    ensures (forall i :: 0 <= i < |s.anuncios| ==> s.anuncios[i].id != aid) ==> r == s
    ensures r == s.(anuncios := r.anuncios)
    ensures AppOk(s) ==> AppOk(r)
  {
    var r := s.(anuncios := RemoveAnuncio(s.anuncios, aid));
    if exists i :: 0 <= i < |s.anuncios| && s.anuncios[i].id == aid then r
    else RemoveAnuncioAbsent(s.anuncios, aid); r
  }

  // ---- nuevo_anuncio --------------------------------------------------------

  datatype AnuncioOutcome =
    | AnuncioRejected(echoTitulo: string, echoContenido: string)
    | AnuncioCreated(anuncio: Anuncio)

  datatype AnuncioResult = AnuncioResult(store: Store, outcome: AnuncioOutcome)

  /** POST `/admin/anuncios/nuevo`: both trimmed fields are required. */
  function NuevoAnuncio(s: Store, titulo: Option<string>, contenido: Option<string>): (r: AnuncioResult)
    ensures r.outcome.AnuncioCreated? <==> FormField(titulo, "") != "" && FormField(contenido, "") != ""
    ensures r.outcome.AnuncioRejected? ==>
              r.store == s && r.outcome == AnuncioRejected(FormField(titulo, ""), FormField(contenido, ""))
    ensures r.outcome.AnuncioCreated? ==>
              && r.outcome.anuncio == Anuncio(s.lastAnuncioId + 1, FormField(titulo, ""), FormField(contenido, ""))
              && r.store == s.(anuncios := s.anuncios + [r.outcome.anuncio], lastAnuncioId := s.lastAnuncioId + 1)
    ensures AppOk(s) ==> AppOk(r.store)
  {
    var t := FormField(titulo, "");
    var c := FormField(contenido, "");
    if t == "" || c == "" then AnuncioResult(s, AnuncioRejected(t, c))
    else
      AnuncioResult(InsertAnuncio(s, t, c), AnuncioCreated(Anuncio(s.lastAnuncioId + 1, t, c)))
  }

  /** In terms of what was submitted: an announcement is stored exactly when both
      fields were sent and each holds some non-whitespace character. */
  lemma NuevoAnuncioIff(s: Store, titulo: Option<string>, contenido: Option<string>)
    ensures NuevoAnuncio(s, titulo, contenido).outcome.AnuncioCreated? <==>
              && titulo.Some? && !AllSpace(titulo.value)
              && contenido.Some? && !AllSpace(contenido.value)
  {
    FormFieldPresentIff(titulo);
    FormFieldPresentIff(contenido);
  }

  // ---- nuevo_usuario --------------------------------------------------------

  datatype UserForm = UserForm(username: Option<string>, password: Option<string>, rol: Option<string>)

  /** The normalised form: the username trimmed and lower-cased, the password
      trimmed, the role trimmed with 'alumno' as default. */
  datatype UserFields = UserFields(username: string, password: string, rol: string)

  function UserFieldsOf(f: UserForm): UserFields {
    UserFields(Lower(FormField(f.username, "")), FormField(f.password, ""), FormField(f.rol, AlumnoRol))
  }

  datatype UserError = UsernameTooShort | PasswordTooShort | InvalidRol | DuplicateUsername

  /** Field errors are reported username first, then password, then rol. */
  function UserErrorRank(e: UserError): nat {
    match e
    case UsernameTooShort => 0
    case PasswordTooShort => 1
    case InvalidRol => 2
    case DuplicateUsername => 3
  }

  function UserFieldErrors(v: UserFields): (errs: seq<UserError>)
    ensures UsernameTooShort in errs <==> |v.username| < 3
    ensures PasswordTooShort in errs <==> |v.password| < 6
    ensures InvalidRol in errs <==> !RolOk(v.rol)
    ensures DuplicateUsername !in errs
    ensures forall i, j :: 0 <= i < j < |errs| ==> UserErrorRank(errs[i]) < UserErrorRank(errs[j])
    ensures forall i, j :: 0 <= i < j < |errs| ==> errs[i] != errs[j]
  {
    (if |v.username| < 3 then [UsernameTooShort] else [])
    + (if |v.password| < 6 then [PasswordTooShort] else [])
    + (if !RolOk(v.rol) then [InvalidRol] else [])
  }

  /** `SELECT id FROM usuarios WHERE LOWER(username)=?` finds a row. */
  predicate TakenIgnoringCase(us: seq<User>, name: string) {
    exists i :: 0 <= i < |us| && Lower(us[i].username) == name
  }

  datatype UserOutcome =
    | UserRejected(errors: seq<UserError>, echoUsername: string, echoRol: string)
    | UserCreated(user: User)

  datatype UserResult = UserResult(store: Store, outcome: UserOutcome)

  /** The decision of `nuevo_usuario` on the normalised fields: field errors
      first, all of them; only then the case-insensitive duplicate check; otherwise
      exactly one user is appended. `hash` stands for `generate_password_hash`. */
  function CreateUser(s: Store, v: UserFields, hash: string -> string): (r: UserResult)
    ensures r.outcome.UserCreated? <==> |UserFieldErrors(v)| == 0 && !TakenIgnoringCase(s.users, v.username)
    ensures r.outcome.UserRejected? ==>
              r.store == s && r.outcome.echoUsername == v.username && r.outcome.echoRol == v.rol
    ensures r.outcome.UserRejected? && |UserFieldErrors(v)| > 0 ==> r.outcome.errors == UserFieldErrors(v)
    ensures r.outcome.UserRejected? && |UserFieldErrors(v)| == 0 ==> r.outcome.errors == [DuplicateUsername]
    ensures r.outcome.UserCreated? ==>
              r.outcome.user == User(s.lastUserId + 1, v.username, hash(v.password), v.rol)
    ensures r.outcome.UserCreated? ==>
              r.store == s.(users := s.users + [r.outcome.user], lastUserId := s.lastUserId + 1)
    ensures r.outcome.UserCreated? ==>
              |v.username| >= 3 && |v.password| >= 6 && RolOk(v.rol)
    ensures AppOk(s) && IsLowered(v.username) ==> AppOk(r.store)
  {
    var errs := UserFieldErrors(v);
    if |errs| > 0 then UserResult(s, UserRejected(errs, v.username, v.rol))
    else if TakenIgnoringCase(s.users, v.username) then
      UserResult(s, UserRejected([DuplicateUsername], v.username, v.rol))
    else
      assert UsernameTooShort !in errs && PasswordTooShort !in errs && InvalidRol !in errs;
      UserResult(InsertUser(s, v.username, hash(v.password), v.rol),
                 UserCreated(User(s.lastUserId + 1, v.username, hash(v.password), v.rol)))
  }

  /** POST `/admin/usuarios/nuevo`. The stored username is always lower-case, so
      the application invariant survives. */
  function NuevoUsuario(s: Store, form: UserForm, hash: string -> string): (r: UserResult)
    ensures r.outcome.UserCreated? <==>
              |UserFieldErrors(UserFieldsOf(form))| == 0 && !TakenIgnoringCase(s.users, UserFieldsOf(form).username)
    ensures r.outcome.UserRejected? ==>
              && r.store == s
              && r.outcome.echoUsername == UserFieldsOf(form).username
              && r.outcome.echoRol == UserFieldsOf(form).rol
    ensures r.outcome.UserRejected? && |UserFieldErrors(UserFieldsOf(form))| > 0 ==>
              r.outcome.errors == UserFieldErrors(UserFieldsOf(form))
    ensures r.outcome.UserRejected? && |UserFieldErrors(UserFieldsOf(form))| == 0 ==>
              r.outcome.errors == [DuplicateUsername]
    ensures r.outcome.UserCreated? ==>
              && r.outcome.user == User(s.lastUserId + 1, UserFieldsOf(form).username,
                                        hash(UserFieldsOf(form).password), UserFieldsOf(form).rol)
              && r.store == s.(users := s.users + [r.outcome.user], lastUserId := s.lastUserId + 1)
    ensures r.outcome.UserCreated? ==> IsLowered(r.outcome.user.username)
    ensures AppOk(s) ==> AppOk(r.store)
  {
    CreateUser(s, UserFieldsOf(form), hash)
  }

  /** A well-formed username that matches an existing one in any letter case is
      refused and nothing is stored. */
  lemma DuplicateInAnyCase(s: Store, form: UserForm, hash: string -> string, i: int)
    ensures 0 <= i < |s.users| && Lower(s.users[i].username) == UserFieldsOf(form).username ==>
              && NuevoUsuario(s, form, hash).store == s
              && (|UserFieldErrors(UserFieldsOf(form))| == 0 ==>
                    NuevoUsuario(s, form, hash).outcome == UserRejected([DuplicateUsername],
                      UserFieldsOf(form).username, UserFieldsOf(form).rol))
  {
  }

  // ---- Routes behind admin_required ----------------------------------------

  datatype AdminRequest =
    | NewMaterial(materialForm: MaterialForm, storedName: string)
    | DeleteMaterial(mid: int)
    | NewAnuncio(titulo: Option<string>, contenido: Option<string>)
    | DeleteAnuncio(aid: int)
    | NewUser(userForm: UserForm)

  datatype AdminResult = AdminResult(store: Store, gate: Gate)

  predicate IsAdmin(user: Option<User>) {
    user.Some? && user.value.rol == AdminRol
  }

  /** A POST to an admin route: the gate decides, then the handler runs. */
  function AdminPost(s: Store, session: Session, path: string, req: AdminRequest,
                     hash: string -> string): (r: AdminResult)
    ensures r.gate == Run <==> IsAdmin(CurrentUser(s, session))
    ensures CurrentUser(s, session).None? ==> r.gate == RedirectLogin(path)
    ensures CurrentUser(s, session).Some? && CurrentUser(s, session).value.rol != AdminRol ==>
              r.gate == RedirectHome
    ensures r.gate != Run ==> r.store == s
    ensures r.store != s ==> IsAdmin(CurrentUser(s, session))
    ensures r.gate == Run && req.NewMaterial? ==>
              r.store == NuevoMaterial(s, req.materialForm, req.storedName).store
    ensures r.gate == Run && req.DeleteMaterial? ==> r.store == EliminarMaterial(s, req.mid)
    ensures r.gate == Run && req.NewAnuncio? ==> r.store == NuevoAnuncio(s, req.titulo, req.contenido).store
    ensures r.gate == Run && req.DeleteAnuncio? ==> r.store == EliminarAnuncio(s, req.aid)
    ensures r.gate == Run && req.NewUser? ==> r.store == NuevoUsuario(s, req.userForm, hash).store
    ensures AppOk(s) ==> AppOk(r.store)
  {
    var gate := AdminRequired(CurrentUser(s, session), path);
    if gate != Run then AdminResult(s, gate)
    else
      var s' := match req
        case NewMaterial(f, name) => NuevoMaterial(s, f, name).store
        case DeleteMaterial(mid) => EliminarMaterial(s, mid)
        case NewAnuncio(t, c) => NuevoAnuncio(s, t, c).store
        case DeleteAnuncio(aid) => EliminarAnuncio(s, aid)
        case NewUser(f) => NuevoUsuario(s, f, hash).store;
      AdminResult(s', Run)
  }
}

=== FILE: admin_progress.dfy ===
/** The administrator's progress views: the per-user summary and the per-user
    detail listing. */
module AdminProgress {
  import opened Wrappers
  import opened Database
  import opened Auth
  import opened Main
  import opened Admin
  import opened Collation

  // ---- progreso_detalle -----------------------------------------------------

  datatype DetailResult = UserNotFound | Detail(user: User, listing: Listing)

  /** GET `/admin/progreso/usuario/<uid>`: an unknown id redirects back to the
      summary; otherwise every material is listed once, newest first, with the
      user's flag. */
  function ProgresoDetalle(s: Store, uid: int): (r: DetailResult)
    ensures r.UserNotFound? <==> uid !in UserIds(s.users)
    ensures r.Detail? ==> r.user in s.users && r.user.id == uid
    ensures r.Detail? ==>
              && r.listing.total == |r.listing.rows| == |s.materiales|
              && 0 <= r.listing.hechos <= r.listing.total
              && r.listing.hechos == multiset(Flags(r.listing.rows))[Completed]
    ensures r.Detail? ==>
              forall i :: 0 <= i < |r.listing.rows| ==>
                && r.listing.rows[i].material == s.materiales[|s.materiales| - 1 - i]
                && r.listing.rows[i].completado == Estado(s.progreso, uid, r.listing.rows[i].material.id)
  {
    match FindUserById(s.users, uid)
    case None => UserNotFound
    case Some(u) =>
      var rows := JoinRows(s.materiales, s.progreso, Some(uid));
      Detail(u, Listing(rows, |rows|, CountDone(rows)))
  }

  /** What the administrator sees for a user is what that user's own listing shows. */
  lemma DetailMatchesOwnListing(s: Store, uid: int, session: Session)
    requires uid in UserIds(s.users)
    requires ListingViewer(session) == Some(uid)
    ensures ProgresoDetalle(s, uid).listing == Materiales(s, session)
  {
  }

  // ---- progreso_resumen -----------------------------------------------------

  datatype SummaryRow = SummaryRow(userId: int, username: string, rol: string, completados: int)

  datatype Summary = Summary(totalMat: int, rows: seq<SummaryRow>)

  /** The materials a user's progress rows mark completed. The primary key makes
      this one row per material, so its size is the `SUM(CASE WHEN p.estado = 1 ...)`
      of the query. The join is on the user only: rows for materials that no
      longer exist are counted too. */
  function CompletedMaterialIds(p: Progreso, uid: int): set<int> {
    set k | k in p && k.0 == uid && p[k] == Completed :: k.1
  }

  function Completados(p: Progreso, uid: int): nat {
    |CompletedMaterialIds(p, uid)|
  }

  /** `ORDER BY u.rol DESC, u.username ASC` */
  predicate Before(a: SummaryRow, b: SummaryRow) {
    if a.rol != b.rol then LexLe(b.rol, a.rol) else LexLe(a.username, b.username)
  }

  lemma BeforeTotal(a: SummaryRow, b: SummaryRow)
    ensures Before(a, b) || Before(b, a)
  {
    LexLeTotal(a.rol, b.rol);
    LexLeTotal(a.username, b.username);
  }

  lemma BeforeTransitive(a: SummaryRow, b: SummaryRow, c: SummaryRow)
    requires Before(a, b) && Before(b, c)
    ensures Before(a, c)
  {
    if a.rol == b.rol && b.rol == c.rol {
      LexLeTransitive(a.username, b.username, c.username);
    } else if a.rol != b.rol && b.rol != c.rol {
      LexLeTransitive(c.rol, b.rol, a.rol);
      if a.rol == c.rol {
        LexLeAntisymmetric(a.rol, b.rol);
      }
    }
  }

  predicate SortedRows(rows: seq<SummaryRow>) {
    forall i, j :: 0 <= i < j < |rows| ==> Before(rows[i], rows[j])
  }

  /** Inserts `x` before the first row it precedes. */
  function InsertRow(x: SummaryRow, rows: seq<SummaryRow>): (r: seq<SummaryRow>)
    ensures |r| == |rows| + 1
    ensures multiset(r) == multiset(rows) + multiset{x}
  {
    if |rows| == 0 then [x]
    else if Before(x, rows[0]) then [x] + rows
    else
      assert rows == [rows[0]] + rows[1..];
      [rows[0]] + InsertRow(x, rows[1..])
  }

  lemma {:induction false} InsertRowSorted(x: SummaryRow, rows: seq<SummaryRow>)
    requires SortedRows(rows)
    ensures SortedRows(InsertRow(x, rows))
  {
    if |rows| == 0 {
    } else if Before(x, rows[0]) {
      forall j | 0 < j < |rows| ensures Before(x, rows[j]) {
        BeforeTransitive(x, rows[0], rows[j]);
      }
    } else {
      var rest := InsertRow(x, rows[1..]);
      InsertRowSorted(x, rows[1..]);
      assert rows == [rows[0]] + rows[1..];
      BeforeTotal(x, rows[0]);
      forall j | 0 <= j < |rest| ensures Before(rows[0], rest[j]) {
        assert rest[j] in multiset(rest);
        if rest[j] != x {
          assert rest[j] in multiset(rows[1..]);
          var k :| 0 <= k < |rows[1..]| && rows[1..][k] == rest[j];
          assert rows[k + 1] == rest[j];
        }
      }
    }
  }

  /** Insertion sort of the summary rows. */
  function SortRows(rows: seq<SummaryRow>): (r: seq<SummaryRow>)
    ensures |r| == |rows|
    ensures multiset(r) == multiset(rows)
    ensures SortedRows(r)
  {
    if |rows| == 0 then []
    else
      assert rows == [rows[0]] + rows[1..];
      InsertRowSorted(rows[0], SortRows(rows[1..]));
      InsertRow(rows[0], SortRows(rows[1..]))
  }

  /** One unsorted summary row per user (the `GROUP BY u.id`). */
  function UserRows(s: Store): (rows: seq<SummaryRow>)
    ensures |rows| == |s.users|
  {
    seq(|s.users|, i requires 0 <= i < |s.users| =>
      SummaryRow(s.users[i].id, s.users[i].username, s.users[i].rol,
                 Completados(s.progreso, s.users[i].id)))
  }

  /** GET `/admin/progreso`: `total_mat` and every user's completed count, ordered
      by role descending, then username. */
  function ProgresoResumen(s: Store): (r: Summary)
    ensures r.totalMat == |s.materiales|
    ensures |r.rows| == |s.users|
    ensures multiset(r.rows) == multiset(UserRows(s))
    ensures SortedRows(r.rows)
  {
    Summary(|s.materiales|, SortRows(UserRows(s)))
  }

  /** Because 'alumno' sorts after 'admin', `rol DESC` lists every student before
      every administrator. */
  lemma AlumnosBeforeAdmins(s: Store, i: int, j: int)
    requires 0 <= i < |ProgresoResumen(s).rows| && 0 <= j < |ProgresoResumen(s).rows|
    requires ProgresoResumen(s).rows[i].rol == AlumnoRol
    requires ProgresoResumen(s).rows[j].rol == AdminRol
    ensures i < j
  {
    var rows := ProgresoResumen(s).rows;
    assert !LexLe(AlumnoRol, AdminRol) by {
      assert AlumnoRol[1..] == "lumno" && AdminRol[1..] == "dmin";
    }
    assert !Before(rows[j], rows[i]);
  }

  /** Every user appears in the summary with their own count. */
  lemma SummaryListsEveryUser(s: Store, k: int)
    requires 0 <= k < |s.users|
    ensures SummaryRow(s.users[k].id, s.users[k].username, s.users[k].rol,
                       Completados(s.progreso, s.users[k].id)) in ProgresoResumen(s).rows
  {
    assert UserRows(s)[k] in multiset(UserRows(s));
  }

  // ---- Counts in the two views --------------------------------------------------

  /** Ids of the listed materials the user has completed. */
  function DoneIds(ms: seq<Material>, p: Progreso, uid: int): set<int> {
    set i | 0 <= i < |ms| && IsDone(p, uid, ms[i].id) :: ms[i].id
  }

  /** Dropping the newest material removes at most its own id from `DoneIds`. */
  lemma DoneIdsSnoc(ms: seq<Material>, p: Progreso, uid: int)
    requires |ms| > 0 && MaterialIdsIncrease(ms)
    ensures ms[|ms| - 1].id !in DoneIds(ms[..|ms| - 1], p, uid)
    ensures DoneIds(ms, p, uid)
         == DoneIds(ms[..|ms| - 1], p, uid) + (if IsDone(p, uid, ms[|ms| - 1].id) then {ms[|ms| - 1].id} else {})
  {
    var init := ms[..|ms| - 1];
    assert forall i :: 0 <= i < |init| ==> init[i] == ms[i];
    forall x | x in DoneIds(ms, p, uid) && x != ms[|ms| - 1].id
      ensures x in DoneIds(init, p, uid)
    {
      var i :| 0 <= i < |ms| && IsDone(p, uid, ms[i].id) && ms[i].id == x;
      assert init[i] == ms[i];
    }
  }

  /** With distinct ids, the listing's `hechos` counts the completed materials. */
  lemma {:induction false} CountDoneIsDoneIds(ms: seq<Material>, p: Progreso, uid: int)
    requires MaterialIdsIncrease(ms)
    ensures CountDone(JoinRows(ms, p, Some(uid))) == |DoneIds(ms, p, uid)|
  {
    if |ms| > 0 {
      var init := ms[..|ms| - 1];
      assert MaterialIdsIncrease(init) by {
        assert forall i :: 0 <= i < |init| ==> init[i] == ms[i];
      }
      CountDoneIsDoneIds(init, p, uid);
      CountDoneSnoc(ms, p, uid);
      DoneIdsSnoc(ms, p, uid);
    }
  }

  /** The user's progress rows all refer to existing materials. */
  predicate NoOrphans(s: Store, uid: int) {
    forall k :: k in s.progreso && k.0 == uid ==> k.1 in MaterialIds(s.materiales)
  }

  /** Without orphan rows the summary count equals the detail's `hechos`, and so
      never exceeds `total_mat`. */
  lemma SummaryAgreesWithDetail(s: Store, uid: int)
    requires MaterialIdsIncrease(s.materiales)
    requires uid in UserIds(s.users)
    requires NoOrphans(s, uid)
    ensures ProgresoDetalle(s, uid).listing.hechos == Completados(s.progreso, uid)
    ensures Completados(s.progreso, uid) <= |s.materiales|
  {
    var rows := JoinRows(s.materiales, s.progreso, Some(uid));
    CountDoneIsDoneIds(s.materiales, s.progreso, uid);
    assert CompletedMaterialIds(s.progreso, uid) == DoneIds(s.materiales, s.progreso, uid) by {
      forall x | x in CompletedMaterialIds(s.progreso, uid) ensures x in DoneIds(s.materiales, s.progreso, uid) {
        var k :| k in s.progreso && k.0 == uid && s.progreso[k] == Completed && k.1 == x;
        assert x in MaterialIds(s.materiales);
        var i :| 0 <= i < |s.materiales| && s.materiales[i].id == x;
        assert IsDone(s.progreso, uid, s.materiales[i].id);
      }
      forall x | x in DoneIds(s.materiales, s.progreso, uid) ensures x in CompletedMaterialIds(s.progreso, uid) {
        assert (uid, x) in s.progreso && s.progreso[(uid, x)] == Completed;
      }
    }
  }

  /** A student completes the only material, the administrator deletes it: the
      progress row survives, the summary reports 1 completed out of 0 materials,
      while the detail view reports 0. */
  lemma SummaryCanExceedTotal()
    ensures var s0 := Store([User(1, "ana", "h", AlumnoRol)], [Material(1, "Tema 1", "pdf", "u")],
                            [], map[], 1, 1, 0);
            var s1 := ToggleProgreso(s0, map[UserIdKey := 1], "/progreso/toggle/1", 1).store;
            var s2 := EliminarMaterial(s1, 1);
            && ProgresoResumen(s2).totalMat == 0
            && ProgresoResumen(s2).rows == [SummaryRow(1, "ana", AlumnoRol, 1)]
            && ProgresoDetalle(s2, 1).listing.hechos == 0
  {
    var s0 := Store([User(1, "ana", "h", AlumnoRol)], [Material(1, "Tema 1", "pdf", "u")], [], map[], 1, 1, 0);
    var session := map[UserIdKey := 1];
    assert CurrentUser(s0, session) == Some(User(1, "ana", "h", AlumnoRol));
    var s1 := ToggleProgreso(s0, session, "/progreso/toggle/1", 1).store;
    assert s1.progreso == map[(1, 1) := Completed];
    var s2 := EliminarMaterial(s1, 1);
    assert s2.materiales == [];
    assert CompletedMaterialIds(s2.progreso, 1) == {1} by {
      assert (1, 1) in s2.progreso;
    }
    assert UserRows(s2) == [SummaryRow(1, "ana", AlumnoRol, 1)];
  }
}

=== FILE: auth.dfy ===
/** Authentication: resolving the current user from the session, the two
    authorization gates wrapped around handlers, and the login/logout transitions
    on the session. */
module Auth {
  import opened Wrappers
  import opened Forms
  import opened Database

  /** The signed cookie session; the model keeps only its "user_id" entry. */
  type Session = map<string, int>

  const UserIdKey := "user_id"

  /** Where a redirect goes: the home page, or a path given by the request. */
  datatype Target = Home | Path(path: string)

  /** The decision of a gate: run the wrapped handler, or redirect. */
  datatype Gate = Run | RedirectLogin(next: string) | RedirectHome

  /** The user loaded before each request: the row whose id is the session's
      "user_id", or none when the key is absent or no such user exists. */
  function CurrentUser(s: Store, session: Session): (r: Option<User>)
    ensures UserIdKey !in session ==> r.None?
    ensures r.Some? ==> r.value in s.users && r.value.id == session[UserIdKey]
    ensures UserIdKey in session && session[UserIdKey] in UserIds(s.users) ==> r.Some?
  {
    if UserIdKey in session then FindUserById(s.users, session[UserIdKey]) else None
  }

  /** `login_required`: anonymous requests go to the login page carrying the
      requested path as `next`; everyone else runs the handler. */
  function LoginRequired(user: Option<User>, path: string): (g: Gate)
    ensures g == Run <==> user.Some?
    ensures g != Run ==> g == RedirectLogin(path)
  {
    if user.None? then RedirectLogin(path) else Run
  }

  /** `admin_required`: anonymous requests go to the login page, logged-in
      non-admins go home, admins run the handler. */
  function AdminRequired(user: Option<User>, path: string): (g: Gate)
    ensures user.None? ==> g == RedirectLogin(path)
    ensures user.Some? && user.value.rol != AdminRol ==> g == RedirectHome
    ensures g == Run <==> user.Some? && user.value.rol == AdminRol
  {
    if user.None? then RedirectLogin(path)
    else if user.value.rol != AdminRol then RedirectHome
    else Run
  }

  /** Whatever the admin gate lets through, the login gate lets through too, and
      the two gates agree on anonymous requests. */
  lemma AdminGateImpliesLoginGate(user: Option<User>, path: string)
    ensures AdminRequired(user, path) == Run ==> LoginRequired(user, path) == Run
    ensures user.None? ==> AdminRequired(user, path) == LoginRequired(user, path)
  {
  }

  /** First user, in rowid order, with `LOWER(username) = name`. */
  function FindByFoldedName(us: seq<User>, name: string): (r: Option<User>)
    ensures r.Some? ==> r.value in us && Lower(r.value.username) == name
    ensures r.None? <==> forall i :: 0 <= i < |us| ==> Lower(us[i].username) != name
  {
    if |us| == 0 then None
    else if Lower(us[0].username) == name then Some(us[0])
    else
      var r := FindByFoldedName(us[1..], name);
      assert forall i :: 1 <= i < |us| ==> us[1..][i - 1] == us[i];
      r
  }

  datatype LoginError = UnknownUser | WrongPassword

  datatype LoginOutcome =
    | AlreadyLoggedIn
    | Rejected(error: LoginError)
    | LoggedIn(user: User, next: Target)

  datatype LoginResult = LoginResult(session: Session, outcome: LoginOutcome)

  /** The username a login form submits, as looked up: trimmed and lower-cased. */
  function LoginName(usernameField: Option<string>): string {
    Lower(FormField(usernameField, ""))
  }

  /** POST `/auth/login`. `checkHash(hash, password)` stands for Werkzeug's
      `check_password_hash`; `nextArg` is the `next` query argument. */
  function Login(s: Store, session: Session, usernameField: Option<string>,
                 passwordField: Option<string>, nextArg: Option<string>,
                 checkHash: (string, string) -> bool): (r: LoginResult)
    ensures CurrentUser(s, session).Some? ==> r == LoginResult(session, AlreadyLoggedIn)
    ensures CurrentUser(s, session).None? ==> r.outcome != AlreadyLoggedIn
    ensures r.outcome.Rejected? ==> r.session == session
    ensures r.outcome.LoggedIn? ==>
              && r.session == map[UserIdKey := r.outcome.user.id]
              && r.outcome.user in s.users
              && Lower(r.outcome.user.username) == Lower(FormField(usernameField, ""))
              && checkHash(r.outcome.user.passwordHash, FormField(passwordField, ""))
    ensures r.outcome == Rejected(UnknownUser) <==>
              CurrentUser(s, session).None?
              && forall i :: 0 <= i < |s.users| ==> Lower(s.users[i].username) != LoginName(usernameField)
    ensures r.outcome == Rejected(WrongPassword) <==>
              && CurrentUser(s, session).None?
              && FindByFoldedName(s.users, LoginName(usernameField)).Some?
              && !checkHash(FindByFoldedName(s.users, LoginName(usernameField)).value.passwordHash,
                            FormField(passwordField, ""))
    ensures r.outcome == Rejected(WrongPassword) ==>
              exists i :: 0 <= i < |s.users| && Lower(s.users[i].username) == LoginName(usernameField)
    ensures r.outcome.LoggedIn? && (nextArg.None? || nextArg.value == "") ==> r.outcome.next == Home
    ensures r.outcome.LoggedIn? && nextArg.Some? && nextArg.value != "" ==> r.outcome.next == Path(nextArg.value)
  {
    LoginByName(s, session, LoginName(usernameField), FormField(passwordField, ""), nextArg, checkHash)
  }

  /** The login decision once the form has been normalised. */
  function LoginByName(s: Store, session: Session, name: string, password: string,
                       nextArg: Option<string>, checkHash: (string, string) -> bool): (r: LoginResult)
    ensures CurrentUser(s, session).Some? ==> r == LoginResult(session, AlreadyLoggedIn)
    ensures r.outcome.Rejected? ==> r.session == session
    ensures r.outcome.LoggedIn? ==>
              && r.session == map[UserIdKey := r.outcome.user.id]
              && r.outcome.user in s.users
              && Lower(r.outcome.user.username) == name
              && checkHash(r.outcome.user.passwordHash, password)
    ensures CurrentUser(s, session).None? ==> r.outcome != AlreadyLoggedIn
    ensures r.outcome == Rejected(UnknownUser) <==>
              CurrentUser(s, session).None?
              && forall i :: 0 <= i < |s.users| ==> Lower(s.users[i].username) != name
    ensures r.outcome == Rejected(WrongPassword) <==>
              && CurrentUser(s, session).None?
              && FindByFoldedName(s.users, name).Some?
              && !checkHash(FindByFoldedName(s.users, name).value.passwordHash, password)
    ensures CurrentUser(s, session).None? && FindByFoldedName(s.users, name).Some?
            && checkHash(FindByFoldedName(s.users, name).value.passwordHash, password) ==>
              r.outcome.LoggedIn? && r.outcome.user == FindByFoldedName(s.users, name).value
    ensures r.outcome.LoggedIn? && (nextArg.None? || nextArg.value == "") ==> r.outcome.next == Home
    ensures r.outcome.LoggedIn? && nextArg.Some? && nextArg.value != "" ==> r.outcome.next == Path(nextArg.value)
  {
    if CurrentUser(s, session).Some? then LoginResult(session, AlreadyLoggedIn)
    else
      match FindByFoldedName(s.users, name)
      case None => LoginResult(session, Rejected(UnknownUser))
      case Some(u) =>
        if !checkHash(u.passwordHash, password) then LoginResult(session, Rejected(WrongPassword))
        else
          var next := if nextArg.None? || nextArg.value == "" then Home else Path(nextArg.value);
          LoginResult(map[UserIdKey := u.id], LoggedIn(u, next))
  }

  /** An anonymous login succeeds exactly when some user matches the folded name
      and the first such user's password check passes. */
  lemma LoginSucceedsIff(s: Store, session: Session, uf: Option<string>, pf: Option<string>,
                         nextArg: Option<string>, checkHash: (string, string) -> bool)
    requires CurrentUser(s, session).None?
    ensures Login(s, session, uf, pf, nextArg, checkHash).outcome.LoggedIn? <==>
              && FindByFoldedName(s.users, LoginName(uf)).Some?
              && checkHash(FindByFoldedName(s.users, LoginName(uf)).value.passwordHash, FormField(pf, ""))
  {
  }

  /** The lookup ignores case: two submitted names that fold to the same text
      give the same result. */
  lemma LoginCaseInsensitive(s: Store, session: Session, a: string, b: string, pf: Option<string>,
                             nextArg: Option<string>, checkHash: (string, string) -> bool)
    requires Lower(a) == Lower(b)
    ensures Login(s, session, Some(a), pf, nextArg, checkHash)
         == Login(s, session, Some(b), pf, nextArg, checkHash)
  {
    if a != "" && b != "" {
      LowerStripCommute(a);
      LowerStripCommute(b);
    } else {
      assert |a| == |Lower(a)| == |Lower(b)| == |b|;
    }
    assert LoginName(Some(a)) == LoginName(Some(b));
  }

  /** After a successful login the session resolves to exactly the user who logged in. */
  lemma LoginThenCurrentUser(s: Store, session: Session, uf: Option<string>, pf: Option<string>,
                             nextArg: Option<string>, checkHash: (string, string) -> bool)
    requires SchemaOk(s)
    requires Login(s, session, uf, pf, nextArg, checkHash).outcome.LoggedIn?
    ensures var r := Login(s, session, uf, pf, nextArg, checkHash);
            CurrentUser(s, r.session) == Some(r.outcome.user)
  {
    var r := Login(s, session, uf, pf, nextArg, checkHash);
    var i :| 0 <= i < |s.users| && s.users[i] == r.outcome.user;
    FindUserByIdAt(s.users, s.lastUserId, i);
  }

  /** POST `/auth/logout`: the session is cleared. */
  function Logout(session: Session): (r: Session)
    ensures UserIdKey !in r && |r| == 0
  {
    map[]
  }

  /** After logout no user is current, whatever the store holds. */
  lemma LogoutThenAnonymous(s: Store, session: Session)
    ensures CurrentUser(s, Logout(session)).None?
    ensures LoginRequired(CurrentUser(s, Logout(session)), "/") == RedirectLogin("/")
  {
  }
}

=== FILE: collation.dfy ===
/** SQLite's default BINARY collation on TEXT: strings compare character by
    character (UTF-8 byte order coincides with code-point order), and a proper
    prefix sorts first. */
module Collation {

  /** `a <= b` under the BINARY collation. */
  predicate LexLe(a: string, b: string)
    decreases |a|
  {
    |a| == 0 || (|b| > 0 && (a[0] < b[0] || (a[0] == b[0] && LexLe(a[1..], b[1..]))))
  }

  lemma {:induction false} LexLeTotal(a: string, b: string)
    ensures LexLe(a, b) || LexLe(b, a)
    decreases |a|
  {
    if |a| > 0 && |b| > 0 && a[0] == b[0] { LexLeTotal(a[1..], b[1..]); }
  }

  lemma {:induction false} LexLeAntisymmetric(a: string, b: string)
    requires LexLe(a, b) && LexLe(b, a)
    ensures a == b
    decreases |a|
  {
    if |a| > 0 {
      LexLeAntisymmetric(a[1..], b[1..]);
      assert a == [a[0]] + a[1..] && b == [b[0]] + b[1..];
    }
  }

  lemma {:induction false} LexLeTransitive(a: string, b: string, c: string)
    requires LexLe(a, b) && LexLe(b, c)
    ensures LexLe(a, c)
    decreases |a|
  {
    if |a| > 0 && a[0] == b[0] && b[0] == c[0] {
      LexLeTransitive(a[1..], b[1..], c[1..]);
    }
  }
}

=== FILE: database.dfy ===
/** The SQLite store of the portal: the four tables created by `init_db`, the
    constraints their schema declares, the invariants the application keeps on top
    of them, and the reseeding performed by `init_db`.

    A table is a sequence of rows in rowid order. Each table with `AUTOINCREMENT`
    carries the value SQLite keeps for it in `sqlite_sequence` (the largest id ever
    handed out), which `DELETE FROM` does not reset. The progress table is a map
    keyed by its primary key `(user_id, material_id)`, so it can never hold two rows
    for one pair. */
module Database {
  import opened Wrappers
  import opened Forms

  datatype User = User(id: int, username: string, passwordHash: string, rol: string)
  datatype Material = Material(id: int, titulo: string, tipo: string, url: string)
  datatype Anuncio = Anuncio(id: int, titulo: string, contenido: string)

  /** Progress estado values. */
  const Pending := 0
  const Completed := 1

  const AdminRol := "admin"
  const AlumnoRol := "alumno"

  datatype Store = Store(
    users: seq<User>,
    materiales: seq<Material>,
    anuncios: seq<Anuncio>,
    progreso: map<(int, int), int>,
    lastUserId: int,
    lastMaterialId: int,
    lastAnuncioId: int)

  /** The database before `init_db` first creates its tables. */
  const EmptyStore := Store([], [], [], map[], 0, 0, 0)

  /** `rol TEXT NOT NULL CHECK (rol IN ('admin','alumno'))` */
  predicate RolOk(rol: string) {
    rol == AdminRol || rol == AlumnoRol
  }

  // ---- Row identity -------------------------------------------------------

  /** Ids strictly increase along a table (rowid order) and never exceed its
      sequence value. */
  predicate UserIdsOk(us: seq<User>, last: int) {
    && (forall i, j :: 0 <= i < j < |us| ==> us[i].id < us[j].id)
    && (forall i :: 0 <= i < |us| ==> 1 <= us[i].id <= last)
  }

  predicate MaterialIdsIncrease(ms: seq<Material>) {
    forall i, j :: 0 <= i < j < |ms| ==> ms[i].id < ms[j].id
  }

  predicate MaterialIdsOk(ms: seq<Material>, last: int) {
    && MaterialIdsIncrease(ms)
    && (forall i :: 0 <= i < |ms| ==> 1 <= ms[i].id <= last)
  }

  predicate AnuncioIdsIncrease(as_: seq<Anuncio>) {
    forall i, j :: 0 <= i < j < |as_| ==> as_[i].id < as_[j].id
  }

  predicate AnuncioIdsOk(as_: seq<Anuncio>, last: int) {
    && AnuncioIdsIncrease(as_)
    && (forall i :: 0 <= i < |as_| ==> 1 <= as_[i].id <= last)
  }

  function MaterialIds(ms: seq<Material>): set<int> {
    set i | 0 <= i < |ms| :: ms[i].id
  }

  function UserIds(us: seq<User>): set<int> {
    set i | 0 <= i < |us| :: us[i].id
  }

  // ---- Constraints --------------------------------------------------------

  /** What the schema itself enforces: keys, `UNIQUE` usernames, the `rol` CHECK. */
  predicate SchemaOk(s: Store) {
    && s.lastUserId >= 0 && s.lastMaterialId >= 0 && s.lastAnuncioId >= 0
    && UserIdsOk(s.users, s.lastUserId)
    && MaterialIdsOk(s.materiales, s.lastMaterialId)
    && AnuncioIdsOk(s.anuncios, s.lastAnuncioId)
    && (forall i, j :: 0 <= i < j < |s.users| ==> s.users[i].username != s.users[j].username)
    && (forall i :: 0 <= i < |s.users| ==> RolOk(s.users[i].rol))
  }

  /** What the application keeps on top of the schema: usernames are stored lowered
      (so `UNIQUE` is also case-insensitive uniqueness), and every estado is 0 or 1
      (the column has a default of 0 but no CHECK). */
  predicate AppOk(s: Store) {
    && SchemaOk(s)
    && (forall i :: 0 <= i < |s.users| ==> IsLowered(s.users[i].username))
    && (forall k :: k in s.progreso ==> s.progreso[k] == Pending || s.progreso[k] == Completed)
  }

  /** Usernames are unique even after folding case. */
  lemma UsernamesUniqueIgnoringCase(s: Store, i: int, j: int)
    requires AppOk(s)
    requires 0 <= i < j < |s.users|
    ensures Lower(s.users[i].username) != Lower(s.users[j].username)
  {
    LowerOfLowered(s.users[i].username);
    LowerOfLowered(s.users[j].username);
  }

  // ---- Lookups ------------------------------------------------------------

  /** `SELECT ... FROM usuarios WHERE id = ?` followed by `fetchone()`. */
  function FindUserById(us: seq<User>, id: int): (r: Option<User>)
    ensures r.Some? ==> r.value in us && r.value.id == id
    ensures r.None? <==> id !in UserIds(us)
  {
    if |us| == 0 then None
    else if us[0].id == id then Some(us[0])
    else
      var rest := FindUserById(us[1..], id);
      assert UserIds(us) == {us[0].id} + UserIds(us[1..]) by {
        forall x | x in UserIds(us) ensures x in {us[0].id} + UserIds(us[1..]) {
          var i :| 0 <= i < |us| && us[i].id == x;
          if i > 0 { assert us[1..][i - 1] == us[i]; }
        }
      }
      rest
  }

  /** With unique ids, the user found by id is the one stored at that position. */
  lemma FindUserByIdAt(us: seq<User>, last: int, i: int)
    requires UserIdsOk(us, last)
    requires 0 <= i < |us|
    ensures FindUserById(us, us[i].id) == Some(us[i])
  {
    if i > 0 {
      assert UserIdsOk(us[1..], last);
      assert us[1..][i - 1] == us[i];
      FindUserByIdAt(us[1..], last, i - 1);
    }
  }

  /** Dropping the newest material keeps the table well-formed and keeps every
      other id. */
  lemma MaterialIdsDropLast(ms: seq<Material>, last: int, x: int)
    requires |ms| > 0 && MaterialIdsOk(ms, last)
    requires x in MaterialIds(ms) && x != ms[|ms| - 1].id
    ensures MaterialIdsOk(ms[..|ms| - 1], last)
    ensures x in MaterialIds(ms[..|ms| - 1])
  {
    var init := ms[..|ms| - 1];
    assert forall i :: 0 <= i < |init| ==> init[i] == ms[i];
    var i :| 0 <= i < |ms| && ms[i].id == x;
    assert init[i].id == x;
  }

  /** With increasing ids, the newest material's id is above every earlier one. */
  lemma LastIdAbove(ms: seq<Material>, init: seq<Material>)
    requires |ms| > 0 && init == ms[..|ms| - 1] && MaterialIdsIncrease(ms)
    ensures forall i :: 0 <= i < |init| ==> init[i].id < ms[|ms| - 1].id
  {
    forall i | 0 <= i < |init| ensures init[i].id < ms[|ms| - 1].id {
      assert init[i] == ms[i];
    }
  }

  // ---- INSERT with AUTOINCREMENT ---------------------------------------------

  /** `INSERT INTO materiales (titulo, tipo, url)`: the new row gets the next id. */
  function InsertMaterial(s: Store, titulo: string, tipo: string, url: string): (r: Store)
    ensures r.materiales == s.materiales + [Material(s.lastMaterialId + 1, titulo, tipo, url)]
    ensures r == s.(materiales := r.materiales, lastMaterialId := s.lastMaterialId + 1)
    ensures AppOk(s) ==> AppOk(r)
  {
    s.(materiales := s.materiales + [Material(s.lastMaterialId + 1, titulo, tipo, url)],
       lastMaterialId := s.lastMaterialId + 1)
  }

  /** `INSERT INTO anuncios (titulo, contenido)`. */
  function InsertAnuncio(s: Store, titulo: string, contenido: string): (r: Store)
    ensures r.anuncios == s.anuncios + [Anuncio(s.lastAnuncioId + 1, titulo, contenido)]
    ensures r == s.(anuncios := r.anuncios, lastAnuncioId := s.lastAnuncioId + 1)
    ensures AppOk(s) ==> AppOk(r)
  {
    s.(anuncios := s.anuncios + [Anuncio(s.lastAnuncioId + 1, titulo, contenido)],
       lastAnuncioId := s.lastAnuncioId + 1)
  }

  /** `INSERT INTO usuarios (username, password_hash, rol)`. The application keeps
      its invariant when the role passes the CHECK and the lowered name is not
      taken in any case. */
  function InsertUser(s: Store, username: string, hash: string, rol: string): (r: Store)
    ensures r.users == s.users + [User(s.lastUserId + 1, username, hash, rol)]
    ensures r == s.(users := r.users, lastUserId := s.lastUserId + 1)
    ensures AppOk(s) && RolOk(rol) && IsLowered(username)
            && (forall i :: 0 <= i < |s.users| ==> Lower(s.users[i].username) != username)
            ==> AppOk(r)
  {
    var r := s.(users := s.users + [User(s.lastUserId + 1, username, hash, rol)],
                lastUserId := s.lastUserId + 1);
    assert forall i :: 0 <= i < |s.users| && AppOk(s) ==> Lower(s.users[i].username) == s.users[i].username by {
      forall i | 0 <= i < |s.users| && AppOk(s) ensures Lower(s.users[i].username) == s.users[i].username {
        LowerOfLowered(s.users[i].username);
      }
    }
    r
  }

  // ---- init_db --------------------------------------------------------------

  const SeedPdfUrl := "http://www.africau.edu/images/default/sample.pdf"
  const SeedVideoUrl := "https://www.youtube.com/watch?v=dQw4w9WgXcQ"

  /** The three seed materials, numbered after the table's last id. */
  function SeedMateriales(last: int): seq<Material> {
    [ Material(last + 1, "Programa de la materia", "pdf", SeedPdfUrl),
      Material(last + 2, "Clase 1 - Presentaci\U{00F3}n", "ppt", SeedPdfUrl),
      Material(last + 3, "Video: Introducci\U{00F3}n", "video", SeedVideoUrl) ]
  }

  function SeedAnuncios(last: int): seq<Anuncio> {
    [ Anuncio(last + 1, "Bienvenida", "Arrancamos el portal de la materia \U{1F389}"),
      Anuncio(last + 2, "Entrega", "La pr\U{00F3}xima semana deber\U{00E1}n entregar el trabajo pr\U{00E1}ctico 1.") ]
  }

  /** `SELECT id FROM usuarios WHERE username = ?` with 'admin': an exact, case-sensitive match. */
  predicate HasUserNamed(us: seq<User>, name: string) {
    exists i :: 0 <= i < |us| && us[i].username == name
  }

  /** The wipe-and-reseed half of `init_db`: `DELETE FROM` then the seed inserts,
      numbered after each table's sequence value. */
  function Reseed(s: Store): (r: Store)
    ensures r.materiales == SeedMateriales(s.lastMaterialId)
    ensures r.anuncios == SeedAnuncios(s.lastAnuncioId)
    ensures r.users == s.users && r.progreso == s.progreso && r.lastUserId == s.lastUserId
    ensures r.lastMaterialId == s.lastMaterialId + 3 && r.lastAnuncioId == s.lastAnuncioId + 2
    ensures AppOk(s) ==> AppOk(r)
  {
    s.(materiales := SeedMateriales(s.lastMaterialId), lastMaterialId := s.lastMaterialId + 3,
       anuncios := SeedAnuncios(s.lastAnuncioId), lastAnuncioId := s.lastAnuncioId + 2)
  }

  /** In a well-formed store without an exact 'admin', no username folds to 'admin' either. */
  lemma AdminNameFree(s: Store)
    requires AppOk(s)
    requires !HasUserNamed(s.users, AdminRol)
    ensures forall i :: 0 <= i < |s.users| ==> Lower(s.users[i].username) != AdminRol
  {
    forall i | 0 <= i < |s.users| ensures Lower(s.users[i].username) != AdminRol {
      LowerOfLowered(s.users[i].username);
    }
  }

  /** `init_db`: wipe and reseed materials and announcements, create the `admin`
      account (password hash `adminHash`) only when no user is named 'admin', and
      leave users and progress otherwise alone. The declared `ON DELETE CASCADE`
      does not fire, because `DELETE FROM materiales` runs on a connection that never
      enabled foreign keys. */
  function InitDb(s: Store, adminHash: string): (r: Store)
    ensures |r.materiales| == 3 && |r.anuncios| == 2
    ensures r.materiales == SeedMateriales(s.lastMaterialId) && r.anuncios == SeedAnuncios(s.lastAnuncioId)
    ensures r.lastMaterialId == s.lastMaterialId + 3 && r.lastAnuncioId == s.lastAnuncioId + 2
    ensures r.materiales[0].tipo == "pdf" && r.materiales[1].tipo == "ppt"
            && r.materiales[2].tipo == "video"
    ensures forall i :: 0 <= i < 3 ==> r.materiales[i].id > s.lastMaterialId
    ensures r.progreso == s.progreso
    ensures HasUserNamed(s.users, AdminRol) ==> r.users == s.users
    ensures !HasUserNamed(s.users, AdminRol) ==>
              && |r.users| == |s.users| + 1 && r.users[..|s.users|] == s.users
              && r.users[|s.users|] == User(s.lastUserId + 1, AdminRol, adminHash, AdminRol)
    ensures HasUserNamed(r.users, AdminRol)
    ensures AppOk(s) ==> AppOk(r)
  {
    var seeded := Reseed(s);
    if HasUserNamed(s.users, AdminRol) then seeded
    else
      assert IsLowered(AdminRol);
      assert AppOk(s) ==> forall i :: 0 <= i < |s.users| ==> Lower(s.users[i].username) != AdminRol by {
        if AppOk(s) { AdminNameFree(s); }
      }
      var r := InsertUser(seeded, AdminRol, adminHash, AdminRol);
      assert r.users[|s.users|].username == AdminRol;
      r
  }

  /** Running `init_db` again never adds a second admin account. */
  lemma InitDbUsersStable(s: Store, h1: string, h2: string)
    ensures InitDb(InitDb(s, h1), h2).users == InitDb(s, h1).users
  {
  }

  /** The first run on an empty database leaves exactly the seed data and one admin. */
  lemma InitDbFromEmpty(h: string)
    ensures InitDb(EmptyStore, h).users == [User(1, AdminRol, h, AdminRol)]
    ensures InitDb(EmptyStore, h).materiales == SeedMateriales(0)
    ensures InitDb(EmptyStore, h).anuncios == SeedAnuncios(0)
    ensures InitDb(EmptyStore, h).progreso == map[]
    ensures AppOk(InitDb(EmptyStore, h))
  {
    assert !HasUserNamed(EmptyStore.users, AdminRol);
  }

  /** Reseeding gives the materials fresh ids, so any progress row that pointed at an
      earlier material no longer matches any material: it is left behind as an orphan. */
  lemma InitDbOrphansOldProgress(s: Store, h: string, k: (int, int))
    requires AppOk(s)
    requires k in s.progreso && k.1 <= s.lastMaterialId
    ensures k in InitDb(s, h).progreso
    ensures k.1 !in MaterialIds(InitDb(s, h).materiales)
  {
  }
}

=== FILE: forms.dfy ===
/** Text handling shared by every handler: the `(request.form.get(k) or d).strip()`
    idiom, Python's `str.strip()` and the ASCII `lower()` used for usernames and
    file extensions. */
module Forms {
  import opened Wrappers

  /** Characters for which Python's `str.isspace()` holds, i.e. what `strip()` removes. */
  predicate IsSpace(c: char) {
    || c == ' ' || c == '\t' || c == '\n' || c == '\r'
    || c == '\U{000B}' || c == '\U{000C}'
    || c == '\U{001C}' || c == '\U{001D}' || c == '\U{001E}' || c == '\U{001F}'
    || c == '\U{0085}' || c == '\U{00A0}' || c == '\U{1680}'
    || ('\U{2000}' <= c <= '\U{200A}')
    || c == '\U{2028}' || c == '\U{2029}' || c == '\U{202F}' || c == '\U{205F}'
    || c == '\U{3000}'
  }

  predicate AllSpace(s: string) {
    forall i :: 0 <= i < |s| ==> IsSpace(s[i])
  }

  /** No whitespace at either end. */
  predicate Trimmed(s: string) {
    |s| > 0 ==> !IsSpace(s[0]) && !IsSpace(s[|s| - 1])
  }

  // ---- strip ----------------------------------------------------------------

  /** `s.lstrip()` */
  function StripLeading(s: string): (r: string)
    ensures |r| <= |s|
    ensures r == s[|s| - |r|..]
    ensures |r| > 0 ==> !IsSpace(r[0])
  {
    if |s| > 0 && IsSpace(s[0]) then StripLeading(s[1..]) else s
  }

  /** `s.rstrip()` */
  function StripTrailing(s: string): (r: string)
    ensures |r| <= |s|
    ensures r == s[..|r|]
    ensures |r| > 0 ==> !IsSpace(r[|r| - 1])
  {
    if |s| > 0 && IsSpace(s[|s| - 1]) then StripTrailing(s[..|s| - 1]) else s
  }

  /** Python's `s.strip()`. */
  function Strip(s: string): (r: string)
    ensures |r| <= |s|
    ensures Trimmed(r)
  {
    var t := StripLeading(s);
    var r := StripTrailing(t);
    assert |r| > 0 ==> r[0] == t[0];
    r
  }

  /** `s` is `core` surrounded by whitespace only. */
  predicate Padded(s: string, p: string, core: string, q: string) {
    s == p + core + q && AllSpace(p) && AllSpace(q)
  }

  /** Everything `lstrip` drops is whitespace. */
  lemma {:induction false} StripLeadingDropsSpace(s: string)
    ensures AllSpace(s[..|s| - |StripLeading(s)|])
  {
    if |s| > 0 && IsSpace(s[0]) {
      var n := |s| - |StripLeading(s)|;
      StripLeadingDropsSpace(s[1..]);
      forall i | 0 <= i < n ensures IsSpace(s[..n][i]) {
        if i > 0 { assert s[..n][i] == s[1..][..n - 1][i - 1]; }
      }
    }
  }

  /** Everything `rstrip` drops is whitespace. */
  lemma {:induction false} StripTrailingDropsSpace(s: string)
    ensures AllSpace(s[|StripTrailing(s)|..])
  {
    if |s| > 0 && IsSpace(s[|s| - 1]) {
      var init := s[..|s| - 1];
      var k := |StripTrailing(s)|;
      StripTrailingDropsSpace(init);
      forall i | 0 <= i < |s| - k ensures IsSpace(s[k..][i]) {
        if k + i < |s| - 1 { assert s[k..][i] == init[k..][i]; }
      }
    }
  }

  /** `Strip` drops a whitespace prefix and a whitespace suffix. */
  lemma StripPadded(s: string)
    ensures Padded(s, s[..|s| - |StripLeading(s)|], Strip(s), StripLeading(s)[|Strip(s)|..])
  {
    var t := StripLeading(s);
    var r := StripTrailing(t);
    assert r == Strip(s);
    StripLeadingDropsSpace(s);
    StripTrailingDropsSpace(t);
    SplitAt(s, |s| - |t|);
    SplitAt(t, |r|);
    PadBoth(s, s[..|s| - |t|], t, r, t[|r|..]);
  }

  lemma SplitAt(s: string, k: int)
    requires 0 <= k <= |s|
    ensures s == s[..k] + s[k..]
  {
  }

  /** What `Strip` keeps is its input without surrounding whitespace: the input is
      the result padded by whitespace on both sides, and the result has no
      whitespace at either end. */
  lemma StripSpec(s: string)
    ensures Trimmed(Strip(s))
    ensures exists p, q :: Padded(s, p, Strip(s), q)
  {
    StripPadded(s);
  }

  lemma PadBoth(s: string, p: string, t: string, r: string, q: string)
    requires s == p + t && t == r + q && AllSpace(p) && AllSpace(q)
    ensures Padded(s, p, r, q)
  {
    assert p + (r + q) == p + r + q;
  }

  lemma {:induction false} StripLeadingEmptyIff(s: string)
    ensures StripLeading(s) == [] <==> AllSpace(s)
  {
    if |s| > 0 && IsSpace(s[0]) {
      StripLeadingEmptyIff(s[1..]);
      assert AllSpace(s) <==> AllSpace(s[1..]) by {
        assert forall i :: 1 <= i < |s| ==> s[i] == s[1..][i - 1];
      }
    }
  }

  /** `rstrip` stops at a non-whitespace character, wherever it sits. */
  lemma {:induction false} StripTrailingKeeps(s: string, i: int)
    requires 0 <= i < |s| && !IsSpace(s[i])
    ensures i < |StripTrailing(s)|
  {
    if IsSpace(s[|s| - 1]) {
      StripTrailingKeeps(s[..|s| - 1], i);
    }
  }

  /** A stripped value is empty exactly when the input held only whitespace. */
  lemma StripEmptyIff(s: string)
    ensures Strip(s) == [] <==> AllSpace(s)
  {
    StripLeadingEmptyIff(s);
    if StripLeading(s) != [] {
      StripTrailingKeeps(StripLeading(s), 0);
    }
  }

  /** Text with no surrounding whitespace is left as it is. */
  lemma StripTrimmed(s: string)
    requires Trimmed(s)
    ensures Strip(s) == s
  {
  }

  /** Stripping twice is stripping once. */
  lemma StripIdempotent(s: string)
    ensures Strip(Strip(s)) == Strip(s)
  {
    StripTrimmed(Strip(s));
  }

  // ---- form fields ------------------------------------------------------------

  /** `(raw or default).strip()`: a missing or empty form value falls back to the default. */
  function FormField(raw: Option<string>, default: string): (r: string)
    ensures Trimmed(r)
    ensures raw.Some? && raw.value != "" ==> r == Strip(raw.value)
    ensures raw.None? || raw.value == "" ==> r == Strip(default)
  {
    match raw
    case None => Strip(default)
    case Some(v) => if v == "" then Strip(default) else Strip(v)
  }

  /** A form field is non-empty after `(raw or "").strip()` exactly when it was
      sent and holds some non-whitespace character. */
  lemma FormFieldPresentIff(raw: Option<string>)
    ensures FormField(raw, "") != "" <==> raw.Some? && !AllSpace(raw.value)
  {
    if raw.Some? { StripEmptyIff(raw.value); }
  }

  // ---- lower ------------------------------------------------------------------

  function LowerChar(c: char): char {
    if 'A' <= c <= 'Z' then (c as int - 'A' as int + 'a' as int) as char else c
  }

  predicate IsLowered(s: string) {
    forall i :: 0 <= i < |s| ==> !('A' <= s[i] <= 'Z')
  }

  /** ASCII lower-casing, as SQLite's `LOWER()` does (and Python's `lower()` on ASCII text). */
  function Lower(s: string): (r: string)
    ensures |r| == |s|
    ensures IsLowered(r)
    ensures forall i :: 0 <= i < |s| && 'A' <= s[i] <= 'Z' ==> r[i] == (s[i] as int - 'A' as int + 'a' as int) as char
    ensures forall i :: 0 <= i < |s| && !('A' <= s[i] <= 'Z') ==> r[i] == s[i]
  {
    seq(|s|, i requires 0 <= i < |s| => LowerChar(s[i]))
  }

  /** Lower-casing is a fixed point on lowered text, hence idempotent. */
  lemma LowerOfLowered(s: string)
    requires IsLowered(s)
    ensures Lower(s) == s
  {
  }

  lemma LowerIdempotent(s: string)
    ensures Lower(Lower(s)) == Lower(s)
  {
    LowerOfLowered(Lower(s));
  }

  lemma LowerIsSpace(c: char)
    ensures IsSpace(LowerChar(c)) == IsSpace(c)
  {
  }

  lemma LowerTail(s: string)
    requires |s| > 0
    ensures Lower(s)[0] == LowerChar(s[0]) && Lower(s)[1..] == Lower(s[1..])
  {
  }

  lemma LowerInit(s: string)
    requires |s| > 0
    ensures Lower(s)[|s| - 1] == LowerChar(s[|s| - 1]) && Lower(s)[..|s| - 1] == Lower(s[..|s| - 1])
  {
  }

  lemma {:induction false} LowerStripLeading(s: string)
    ensures Lower(StripLeading(s)) == StripLeading(Lower(s))
  {
    if |s| > 0 {
      LowerTail(s);
      LowerIsSpace(s[0]);
      if IsSpace(s[0]) {
        LowerStripLeading(s[1..]);
      }
    }
  }

  lemma {:induction false} LowerStripTrailing(s: string)
    ensures Lower(StripTrailing(s)) == StripTrailing(Lower(s))
  {
    if |s| > 0 {
      LowerInit(s);
      LowerIsSpace(s[|s| - 1]);
      if IsSpace(s[|s| - 1]) {
        LowerStripTrailing(s[..|s| - 1]);
      }
    }
  }

  /** Lower-casing does not move whitespace, so it commutes with stripping. */
  lemma LowerStripCommute(s: string)
    ensures Lower(Strip(s)) == Strip(Lower(s))
  {
    LowerStripLeading(s);
    LowerStripTrailing(StripLeading(s));
  }
}

=== FILE: main.dfy ===
/** The student-facing routes: the materials listing with its completion counts,
    and the progress toggle on a (user, material) pair. */
module Main {
  import opened Wrappers
  import opened Database
  import opened Auth

  type Progreso = map<(int, int), int>

  /** One listed material with its `completado` flag. */
  datatype Row = Row(material: Material, completado: int)

  /** What the listing page shows: the rows, `total` and `hechos` (completed). */
  datatype Listing = Listing(rows: seq<Row>, total: int, hechos: int)

  /** `COALESCE(p.estado, 0)` for the pair: the stored estado, or pending when no row exists. */
  function Estado(p: Progreso, uid: int, mid: int): int {
    if (uid, mid) in p then p[(uid, mid)] else Pending
  }

  /** The completion flag a user observes for a material. */
  predicate IsDone(p: Progreso, uid: int, mid: int) {
    Estado(p, uid, mid) == Completed
  }

  /** `session.get("user_id")` tested for truth: a missing key and the id 0 both
      give the anonymous listing. */
  function ListingViewer(session: Session): (v: Option<int>)
    ensures v.Some? <==> UserIdKey in session && session[UserIdKey] != 0
    ensures v.Some? ==> v.value == session[UserIdKey]
  {
    if UserIdKey in session && session[UserIdKey] != 0 then Some(session[UserIdKey]) else None
  }

  /** The `completado` column: joined progress for a viewer, constant 0 otherwise. */
  function Completado(p: Progreso, viewer: Option<int>, mid: int): int {
    match viewer
    case None => 0
    case Some(uid) => Estado(p, uid, mid)
  }

  /** The materials joined with the viewer's progress, `ORDER BY m.id DESC`:
      the rowid-ordered table read from its end. */
  function JoinRows(ms: seq<Material>, p: Progreso, viewer: Option<int>): (rows: seq<Row>)
    ensures |rows| == |ms|
    ensures forall i :: 0 <= i < |ms| ==> rows[i].material == ms[|ms| - 1 - i]
    ensures forall i :: 0 <= i < |ms| ==> rows[i].completado == Completado(p, viewer, ms[|ms| - 1 - i].id)
  {
    if |ms| == 0 then []
    else
      var last := ms[|ms| - 1];
      [Row(last, Completado(p, viewer, last.id))] + JoinRows(ms[..|ms| - 1], p, viewer)
  }

  /** The `completado` column of the listed rows, in order. */
  function Flags(rows: seq<Row>): (fs: seq<int>)
    ensures |fs| == |rows|
    ensures forall i :: 0 <= i < |rows| ==> fs[i] == rows[i].completado
  {
    seq(|rows|, i requires 0 <= i < |rows| => rows[i].completado)
  }

  /** `sum(1 for f in filas if f["completado"] == 1)`: how many listed rows have
      the flag 1. */
  function CountDone(rows: seq<Row>): (n: nat)
    ensures n == multiset(Flags(rows))[Completed]
    ensures n <= |rows|
    ensures n == 0 <==> forall i :: 0 <= i < |rows| ==> rows[i].completado != Completed
    ensures n == |rows| <==> forall i :: 0 <= i < |rows| ==> rows[i].completado == Completed
  {
    if |rows| == 0 then 0
    else
      var rest := CountDone(rows[1..]);
      assert forall i :: 1 <= i < |rows| ==> rows[1..][i - 1] == rows[i];
      assert Flags(rows) == [rows[0].completado] + Flags(rows[1..]);
      (if rows[0].completado == Completed then 1 else 0) + rest
  }

  /** GET `/materiales`. */
  function Materiales(s: Store, session: Session): (l: Listing)
    ensures l.total == |l.rows| == |s.materiales|
    ensures 0 <= l.hechos <= l.total
    ensures forall i :: 0 <= i < |l.rows| ==> l.rows[i].material == s.materiales[|s.materiales| - 1 - i]
    ensures l.hechos == multiset(Flags(l.rows))[Completed]
    ensures ListingViewer(session).None? ==>
              l.hechos == 0 && forall i :: 0 <= i < |l.rows| ==> l.rows[i].completado == 0
    ensures ListingViewer(session).Some? ==>
              forall i :: 0 <= i < |l.rows| ==>
                l.rows[i].completado == Estado(s.progreso, ListingViewer(session).value, l.rows[i].material.id)
  {
    var rows := JoinRows(s.materiales, s.progreso, ListingViewer(session));
    Listing(rows, |rows|, CountDone(rows))
  }

  /** In a well-formed store the listing is ordered by id, newest first, so each
      material appears exactly once. */
  lemma ListingNewestFirst(s: Store, session: Session, i: int, j: int)
    requires SchemaOk(s)
    requires 0 <= i < j < |Materiales(s, session).rows|
    ensures Materiales(s, session).rows[i].material.id > Materiales(s, session).rows[j].material.id
  {
  }

  /** Every material of the store is listed. */
  lemma ListingCoversMateriales(s: Store, session: Session, k: int)
    requires 0 <= k < |s.materiales|
    ensures Materiales(s, session).rows[|s.materiales| - 1 - k].material == s.materiales[k]
  {
  }

  // ---- Toggle ---------------------------------------------------------------

  /** The state transition of POST `/progreso/toggle/<mid>` on the progress table:
      insert the pair as completed when absent, otherwise flip 1 to 0 and anything
      else to 1. */
  function Toggle(p: Progreso, uid: int, mid: int): (r: Progreso)
    ensures r.Keys == p.Keys + {(uid, mid)}
    ensures (uid, mid) !in p ==> r[(uid, mid)] == Completed
    ensures (uid, mid) in p && p[(uid, mid)] == Completed ==> r[(uid, mid)] == Pending
    ensures (uid, mid) in p && p[(uid, mid)] != Completed ==> r[(uid, mid)] == Completed
    ensures forall k :: k in p && k != (uid, mid) ==> r[k] == p[k]
  {
    if (uid, mid) !in p then p[(uid, mid) := Completed]
    else p[(uid, mid) := if p[(uid, mid)] == Completed then Pending else Completed]
  }

  /** A toggle flips the observed completion flag of its pair and of no other. */
  lemma ToggleFlipsFlag(p: Progreso, uid: int, mid: int)
    ensures IsDone(Toggle(p, uid, mid), uid, mid) == !IsDone(p, uid, mid)
    ensures forall u, m :: (u, m) != (uid, mid) ==> Estado(Toggle(p, uid, mid), u, m) == Estado(p, u, m)
  {
  }

  /** Two toggles restore the observed flag; on a stored 0/1 row they restore the
      table exactly. */
  lemma ToggleTwice(p: Progreso, uid: int, mid: int)
    ensures IsDone(Toggle(Toggle(p, uid, mid), uid, mid), uid, mid) == IsDone(p, uid, mid)
    ensures (uid, mid) in p && (p[(uid, mid)] == Pending || p[(uid, mid)] == Completed) ==>
              Toggle(Toggle(p, uid, mid), uid, mid) == p
    ensures (uid, mid) !in p ==> Toggle(Toggle(p, uid, mid), uid, mid) == p[(uid, mid) := Pending]
  {
    ToggleFlipsFlag(p, uid, mid);
    ToggleFlipsFlag(Toggle(p, uid, mid), uid, mid);
  }

  datatype ToggleResult = ToggleResult(store: Store, gate: Gate)

  /** POST `/progreso/toggle/<mid>` behind `login_required`. The material id is
      not checked against the materials table. */
  function ToggleProgreso(s: Store, session: Session, path: string, mid: int): (r: ToggleResult)
    ensures r.gate == Run <==> CurrentUser(s, session).Some?
    ensures r.gate != Run ==> r.gate == RedirectLogin(path) && r.store == s
    ensures r.gate == Run ==>
              var uid := CurrentUser(s, session).value.id;
              && IsDone(r.store.progreso, uid, mid) == !IsDone(s.progreso, uid, mid)
              && r.store.progreso.Keys == s.progreso.Keys + {(uid, mid)}
              && (forall k :: k in s.progreso && k != (uid, mid) ==> r.store.progreso[k] == s.progreso[k])
    ensures r.store == s.(progreso := r.store.progreso)
    ensures AppOk(s) ==> AppOk(r.store)
  {
    var user := CurrentUser(s, session);
    var gate := LoginRequired(user, path);
    if gate != Run then ToggleResult(s, gate)
    else
      ToggleFlipsFlag(s.progreso, user.value.id, mid);
      ToggleResult(s.(progreso := Toggle(s.progreso, user.value.id, mid)), Run)
  }

  /** A logged-in toggle on a material id that does not exist still inserts a row. */
  lemma ToggleUnknownMaterial(s: Store, session: Session, path: string, mid: int)
    requires CurrentUser(s, session).Some?
    requires mid !in MaterialIds(s.materiales)
    ensures (CurrentUser(s, session).value.id, mid) in ToggleProgreso(s, session, path, mid).store.progreso
  {
  }

  // ---- Toggle and the listing counts ------------------------------------------

  /** The viewer's count, peeling off the newest material. */
  lemma CountDoneSnoc(ms: seq<Material>, p: Progreso, uid: int)
    requires |ms| > 0
    ensures CountDone(JoinRows(ms, p, Some(uid)))
         == (if IsDone(p, uid, ms[|ms| - 1].id) then 1 else 0) + CountDone(JoinRows(ms[..|ms| - 1], p, Some(uid)))
  {
    assert JoinRows(ms, p, Some(uid))[1..] == JoinRows(ms[..|ms| - 1], p, Some(uid));
  }

  lemma {:induction false} CountSameEstados(ms: seq<Material>, p: Progreso, q: Progreso, uid: int)
    requires forall i :: 0 <= i < |ms| ==> Estado(p, uid, ms[i].id) == Estado(q, uid, ms[i].id)
    ensures CountDone(JoinRows(ms, p, Some(uid))) == CountDone(JoinRows(ms, q, Some(uid)))
  {
    if |ms| > 0 {
      var init := ms[..|ms| - 1];
      assert forall i :: 0 <= i < |init| ==> init[i] == ms[i];
      CountSameEstados(init, p, q, uid);
      CountDoneSnoc(ms, p, uid);
      CountDoneSnoc(ms, q, uid);
    }
  }

  /** Toggling a material that is not listed leaves the count alone. */
  lemma ToggleElsewhereKeepsCount(ms: seq<Material>, p: Progreso, uid: int, mid: int)
    requires forall i :: 0 <= i < |ms| ==> ms[i].id < mid
    ensures CountDone(JoinRows(ms, Toggle(p, uid, mid), Some(uid))) == CountDone(JoinRows(ms, p, Some(uid)))
  {
    ToggleFlipsFlag(p, uid, mid);
    CountSameEstados(ms, p, Toggle(p, uid, mid), uid);
  }

  lemma {:induction false} CountAfterToggle(ms: seq<Material>, last: int, p: Progreso, uid: int, mid: int)
    requires MaterialIdsOk(ms, last)
    requires mid in MaterialIds(ms)
    ensures CountDone(JoinRows(ms, Toggle(p, uid, mid), Some(uid)))
         == CountDone(JoinRows(ms, p, Some(uid))) + (if IsDone(p, uid, mid) then -1 else 1)
  {
    var q := Toggle(p, uid, mid);
    var init := ms[..|ms| - 1];
    var m := ms[|ms| - 1];
    CountDoneSnoc(ms, p, uid);
    CountDoneSnoc(ms, q, uid);
    if m.id == mid {
      ToggleFlipsFlag(p, uid, mid);
      LastIdAbove(ms, init);
      ToggleElsewhereKeepsCount(init, p, uid, mid);
    } else {
      assert Estado(q, uid, m.id) == Estado(p, uid, m.id) by {
        ToggleFlipsFlag(p, uid, mid);
      }
      MaterialIdsDropLast(ms, last, mid);
      CountAfterToggle(init, last, p, uid, mid);
    }
  }

  /** Toggling a listed material moves the viewer's `hechos` by exactly one: up
      when it was not completed, down when it was. */
  lemma ToggleShiftsHechos(s: Store, session: Session, path: string, mid: int)
    requires SchemaOk(s)
    requires CurrentUser(s, session).Some? && ListingViewer(session).Some?
    requires mid in MaterialIds(s.materiales)
    ensures Materiales(ToggleProgreso(s, session, path, mid).store, session).hechos
         == Materiales(s, session).hechos
            + (if IsDone(s.progreso, CurrentUser(s, session).value.id, mid) then -1 else 1)
  {
    var uid := CurrentUser(s, session).value.id;
    CountAfterToggle(s.materiales, s.lastMaterialId, s.progreso, uid, mid);
  }
}

=== FILE: wrappers.dfy ===
/** Optional values: a form field that was not sent, a lookup that found nothing. */
module Wrappers {

  datatype Option<T> = None | Some(value: T)
}
